=== FILE: README.md ===
# grundfoskoret calendar sync — a Dafny model

`src/sync_calendar.py` fetches the choir's members-only calendar page. It then:

1. picks out every `.calendar-event-title` element;
2. reads a title, a Danish date text (`Søndag d. 5. marts 2023`, or a range
   `d. 5. marts 2023 - d. 7. marts 2023`) and a time text (`19:00 - 21:00`)
   from each element;
3. writes one iCalendar file with one VEVENT per event.

Each event's UID is a digest of `<ISO date>:<n>`, where `n` counts that date's
events so far in the run. An event whose title holds "aflyst" (Danish for
"cancelled") in any letter case is marked `METHOD:CANCEL` and
`STATUS:CANCELLED`.

This project models that core as pure functions over immutable data, one
module per stage:

| module | file | models |
|---|---|---|
| `Outcome` | outcome.dfy | the exceptions the code can raise (`Error`), `Option`, `Result` |
| `Text` | text.dfy | `str.split`, `in`, `partition`, `replace`, `lower` |
| `Numerals` | numerals.dfy | `int()` on decimal text, `'%d'`, zero-padding |
| `Months` | months.dfy | `MONTH_MAP` and its case-insensitive lookup |
| `Civil` | civil.dfy | `datetime.datetime(...)` validity, `date().isoformat()` |
| `DateText` | date_text.dfy | `parse_single_date`, `parse_date`, `parse_double_date` |
| `TimeText` | time_text.dfy | `parse_time` |
| `Extract` | extract.dfy | the `parse_events` loop over the selected elements |
| `Identity` | identity.dfy | `get_uuid`: the per-date counters and the digested text |
| `Assembly` | calendar.dfy | `eventdata_to_calendar` |
| `Pipeline` | pipeline.dfy | `main` without the request and the file write, plus worked pages |

## How errors travel

The source has no `try`/`except`. Any of these errors escapes `parse_events`
and ends the run with no calendar:

- a failed tuple unpack;
- `int()` of non-numeric text;
- an unknown month name;
- `.contents[0]` of a missing child;
- a string method called on a markup element;
- `datetime()` rejecting a date that does not exist, or a field too large for a C `int`;
- pytz `localize` overflowing on the first or last day `datetime` can hold.

The model follows the code:

- `Extract.ExamineFragment` returns one of three steps: `Skip` (an explicit
  `continue`), `Keep(record)`, or `Abort(error)`.
- `Extract.ParseEvents` fails with the first `Abort`.

So malformed date or time text is never skipped: its error propagates out of
`parse_events`. Only the explicit `continue`s skip a fragment: fewer than three
children, an empty title, an empty date text, a stale start year, or an empty
time text.

The checks run in source order. The year-2023 staleness filter runs before the
time child is read, so an old event with malformed time text is skipped and
does not fail the run.

## Model

| member | source | states |
|---|---|---|
| Text.Split | src/sync_calendar.py:70-72 | `str.split(sep)` for a non-empty separator: joining the parts with the separator gives back the input; no part contains the separator; there is exactly one part iff the separator does not occur |
| Text.Contains | src/sync_calendar.py:42 | `pat in s` holds iff the pattern occurs at some index |
| Text.After | src/sync_calendar.py:60 | `partition(sep)[2]` is empty when `sep` is absent; otherwise it is the suffix right after the first occurrence, with no occurrence before it |
| Text.SplitRange | src/sync_calendar.py:52 | `a + " - " + b` splits into exactly `[a, b]` when neither half holds `" - "` and `a` does not end in `" -"` |
| Text.RemoveChar | src/sync_calendar.py:62 | `replace(".", "")` leaves no dot and keeps every other character with its multiplicity |
| Text.RemoveCharAppend | src/sync_calendar.py:62 | removing every `.` distributes over concatenation: the trailing dot of `5.` goes and the digits stay |
| Text.Lower | src/sync_calendar.py:63 | `lower()` keeps the length and maps each upper-case letter to its lower-case form, leaving every other character alone |
| Text.LowerIdempotent | src/sync_calendar.py:63 | lower-casing twice is lower-casing once |
| Numerals.ParseInt | src/sync_calendar.py:62-64 | `int()` succeeds iff the text is an optional sign followed by digits; the value is the number the digits denote, most significant first and leading zeros included, negated after `-`; unsigned text gives a non-negative value, `-` text a non-positive one |
| Numerals.LeadingZeroIgnored | src/sync_calendar.py:71-72 | `int()` gives the same value with or without a leading zero, after any sign, so `00` is 0 and `05` is 5 |
| Numerals.PadReadsBack | src/sync_calendar.py:62-64 | zero-padded text of any positive width reads back through `int()` as the number it pads |
| Numerals.IntText | src/sync_calendar.py:138 | `'%d'` text of an integer reads back as that integer through `int()` |
| Numerals.IntTextInjective | src/sync_calendar.py:138 | different integers print as different `'%d'` texts |
| Numerals.Pad | src/sync_calendar.py:132 | zero-padding has the requested width, is all digits and reads back as the number |
| Numerals.IntegerTextShape | src/sync_calendar.py:61-64 | integer text holds no space, colon or dot, so it survives the space and colon splits whole |
| Months.MonthNumber | src/sync_calendar.py:63 | `MONTH_MAP[name.lower()]` succeeds iff the lower-cased name is a key; the number is in 1..12 and is the position of that name in the calendar-ordered name list |
| Months.MonthMapIsBijection | src/sync_calendar.py:25-38 | the table has twelve lower-case keys and values 1..12; no two names share a number; it agrees with the calendar-ordered name list |
| Months.MonthNamesResolve | src/sync_calendar.py:25-38 | every listed name resolves to its month |
| Months.MonthNumberIgnoresCase | src/sync_calendar.py:63 | a name and its lower-case form resolve alike, so `Marts` and `MARTS` are March |
| Months.MonthNameIsOneWord | src/sync_calendar.py:61-63 | a name that resolves contains no space and no `-`, so the space split keeps it whole and it cannot form a range separator |
| Civil.DaysInMonth | src/sync_calendar.py:104-118 | Gregorian month lengths: 31 for the seven long months, 30 for the four short ones, 29 only for February of a leap year |
| Civil.MakeDateTime | src/sync_calendar.py:104-118 | `datetime()` succeeds iff year 1..9999, month 1..12, the day exists in that month, hour 0..23 and minute 0..59; a field outside the C `int` range raises `OutOfRange` (OverflowError) whatever the others; any other failure is `InvalidInstant` (ValueError) |
| Civil.Localize | src/sync_calendar.py:104-118 | `localize` keeps the civil fields, and raises `OutOfRange` iff the instant is on 0001-01-01 or 9999-12-31, where its one-day probes overflow |
| Civil.IsoDate | src/sync_calendar.py:132 | `date().isoformat()` is ten characters with `-` at positions 4 and 7 |
| Civil.IsoDateFields | src/sync_calendar.py:132 | the digit groups of the ISO date read back as year, month and day |
| Civil.IsoDateIdentifiesDay | src/sync_calendar.py:132-136 | two instants share a counter key iff they fall on the same calendar day, whatever their times |
| DateText.IntToken | src/sync_calendar.py:62-64 | `int(token)` succeeds iff the token is integer text, and gives its value; otherwise `NotAnInteger` |
| DateText.MonthToken | src/sync_calendar.py:63 | the month lookup succeeds iff the name is known, and gives 1..12; otherwise `UnknownMonth` |
| DateText.ParseSingleDate | src/sync_calendar.py:59-66 | text without `d. ` fails the three-way unpack; a parsed month is in 1..12 |
| DateText.SingleDateTokens | src/sync_calendar.py:59-66 | a single date parses iff the text after the first `d. ` is exactly three space-separated tokens: integer text once dots are removed, a known month, and integer text; the result is what those tokens denote |
| DateText.ParseDate | src/sync_calendar.py:41-56 | a parsed range has both months in 1..12 |
| DateText.OneDayDate | src/sync_calendar.py:41-48 | without `" - "` the text parses iff it parses as one date, and start and end are both that date |
| DateText.TwoHalfDate | src/sync_calendar.py:51-56 | with exactly one `" - "` the range parses iff both halves parse; the start comes from the left half and the end from the right |
| DateText.ManySeparatorsFail | src/sync_calendar.py:52 | a text that `split(" - ")` cuts into more than two parts fails the two-way unpack (overlapping separators, as in `a - - b`, make only two parts) |
| DateText.MarkerFoundAfterPrefix | src/sync_calendar.py:60 | `partition("d. ")` keeps exactly what follows the marker when the text before it has no marker |
| DateText.SingleDateRoundTrip | src/sync_calendar.py:59-66 | `<weekday> d. <D>. <month> <Y>` parses to day D, the month's number and year Y; the weekday is ignored and the month may be in any case |
| DateText.RangeRoundTrip | src/sync_calendar.py:41-56 | `a - b` parses as the pair of its halves parsed alone, and fails iff one of them fails |
| TimeText.IntTokens | src/sync_calendar.py:71-72 | the list comprehension of `int()` succeeds iff every part is integer text, and keeps their values in order |
| TimeText.ClockTokens | src/sync_calendar.py:71-72 | one side parses iff it splits on `:` into exactly two integer texts, and gives their values |
| TimeText.ParseClock | src/sync_calendar.py:71-72 | one side of a time range fails only by non-integer text or by not unpacking into exactly two numbers |
| TimeText.ParseTime | src/sync_calendar.py:69-75 | a time parse fails only by a bad unpack or by non-integer text |
| TimeText.TimeHalves | src/sync_calendar.py:69-75 | a time range parses iff it has exactly one `" - "` and each side parses as a clock reading; start and end come from the left and right sides |
| TimeText.ClockRoundTrip | src/sync_calendar.py:71-72 | `H:M` parses to the numbers its digits spell |
| TimeText.TimeRoundTrip | src/sync_calendar.py:69-75 | `H:M - H:M` parses to its four numbers, with no range check: `25:99` passes here |
| Extract.Truthy | src/sync_calendar.py:87-99 | Python truthiness of a child: only the empty string is false, an element is always true |
| Extract.FirstContent | src/sync_calendar.py:90 | `.contents[0]` succeeds iff the child is an element with at least one child, and gives that child; otherwise `NoContents` |
| Extract.TextOf | src/sync_calendar.py:94 | string operations succeed iff the node is text, and see its string; otherwise `NotText` |
| Extract.IsCancelled | src/sync_calendar.py:125 | `"aflyst" in title.lower()` holds iff some stretch of the title spells `aflyst` in some mix of upper and lower case |
| Extract.CancelledIffKeywordInAnyCase | src/sync_calendar.py:125 | the keyword occurs in the lower-cased title iff some stretch of the title spells it in some letter case |
| Extract.Instants | src/sync_calendar.py:104-118 | both instants are built iff both field sets are valid `datetime` fields and neither lies on the first or last representable day; the instants are the date halves combined with the times; the first failing step decides the error, start before end: `OutOfRange` from `datetime()` for a field beyond a C `int`, `InvalidInstant` from `datetime()` for any other bad field set, `OutOfRange` from `localize` |
| Extract.Examine | src/sync_calendar.py:83-126 | fewer than three children or a falsy title is a `continue`; a date child without a first content raises; an empty date text is a `continue` |
| Extract.ExamineFragment | src/sync_calendar.py:82-126 | fewer than three children, an empty title, or an empty date text is a skip; a kept record's title is the fragment's first child and is non-empty; its start year is at least 2023; its cancelled flag is the keyword test on its title |
| Extract.KeptRecordOrigin | src/sync_calendar.py:90-118 | a kept record's start and end are the parsed date and time texts of children 1 and 2, combined field by field |
| Extract.StaleFragmentSkipped | src/sync_calendar.py:94-100 | a date before 2023 skips the fragment before the time is read; no time text and no missing time child can make it fail |
| Extract.MalformedDateAborts | src/sync_calendar.py:90-94 | a date-parse error is not caught: the fragment raises that error |
| Extract.MalformedTimeAborts | src/sync_calendar.py:98-102 | a time-parse error of a current event raises that error |
| Extract.EmptyTimeSkipped | src/sync_calendar.py:98-100 | an empty time text after a current date is a skip |
| Extract.MissingTimeAborts | src/sync_calendar.py:98 | a current event whose time child has no first content raises `NoContents` |
| Extract.ImpossibleInstantAborts | src/sync_calendar.py:104-118 | texts that parse but name no moment that can be built and localized raise the error of the step that fails |
| Extract.CurrentFragmentKept | src/sync_calendar.py:86-126 | a current fragment with a text title and valid instants is kept with exactly the title, those instants and the title's cancellation flag |
| Extract.Collect | src/sync_calendar.py:81-128 | the accumulation holds at most one record per step, and a failure carries the error of some step that raises |
| Extract.CollectOkIffNoAbort | src/sync_calendar.py:81-128 | the accumulation succeeds iff no step raises, and holds at most one record per step |
| Extract.CollectFailsAtFirstAbort | src/sync_calendar.py:81-128 | a failed accumulation carries the error of a step that raises, and no earlier step raises |
| Extract.PickedAreKept | src/sync_calendar.py:81-128 | the positions of the kept steps are in range, strictly increasing, and each names a kept step |
| Extract.KeptArePicked | src/sync_calendar.py:81-128 | every kept step's position is listed |
| Extract.CollectFollowsPicked | src/sync_calendar.py:121-126 | the k-th accumulated record is the record of the k-th kept step |
| Extract.CollectSelects | src/sync_calendar.py:81-128 | a successful accumulation is exactly the kept steps' records, as an order-preserving subsequence; every other step was a skip |
| Extract.ParseEvents | src/sync_calendar.py:78-128 | `parse_events` succeeds iff no fragment raises, and returns at most one record per fragment |
| Extract.ParseEventsFailsAtFirstAbort | src/sync_calendar.py:78-128 | a failed run reports the error of the first fragment that raises |
| Extract.ParseEventsSelects | src/sync_calendar.py:78-128 | the records are the kept fragments' records in page order; every fragment not kept was skipped |
| Extract.ParsedRecordsAreCurrent | src/sync_calendar.py:95-96 | every returned record starts in 2023 or later, and is cancelled iff its title holds the keyword |
| Identity.UidSource | src/sync_calendar.py:138 | `'%s:%d'` is the date text, a colon, then text that reads back as the counter |
| Identity.UidSourceInjective | src/sync_calendar.py:138 | for dates of one width, `'%s:%d'` texts are equal iff date and counter are equal |
| Identity.GetUuid | src/sync_calendar.py:131-138 | the counter of the event's date goes up by one from its old value (0 when absent); every other counter is unchanged; the key is the date with the new count |
| Identity.UidKeys | src/sync_calendar.py:175-182 | one key per start instant, in order, each carrying the ISO date of its instant |
| Identity.OccurrencesSplit | src/sync_calendar.py:134-136 | counting events on a day splits at any point of the list |
| Identity.UidKeysCountDay | src/sync_calendar.py:131-136 | the i-th call keys its date with the starting count plus the number of earlier events on that day, plus one |
| Identity.UidKeysNumberEachDay | src/sync_calendar.py:175-182 | from empty counters, the k-th event on a day (counting from 1) gets key (ISO date, k) |
| Identity.LaterOnSameDay | src/sync_calendar.py:134-136 | a later event on the same day has more earlier events of that day |
| Identity.UidKeysApart | src/sync_calendar.py:175-182 | two events of one run never digest the same text |
| Identity.UidKeysDistinct | src/sync_calendar.py:175-182 | all the digested texts of one run are pairwise distinct |
| Assembly.EntryFor | src/sync_calendar.py:178-191 | one event: uid is the digest of the key `get_uuid` hands out; stamp is `now`; name and description are the title; start and end are the record's; cancellation marks are present iff the record is cancelled; the counters advance as `get_uuid` leaves them |
| Assembly.Entries | src/sync_calendar.py:177-193 | one event per record, in order, each describing its record |
| Assembly.EntriesFollowKeys | src/sync_calendar.py:175-182 | the loop's events carry exactly the keys of successive `get_uuid` calls |
| Assembly.EntriesNumberEachDay | src/sync_calendar.py:175-182 | in one run the k-th event on a day is keyed (ISO date, k) |
| Assembly.EntriesDistinct | src/sync_calendar.py:175-182 | in one run no two events digest the same text |
| Assembly.EventdataToCalendar | src/sync_calendar.py:166-195 | fixed PRODID and VERSION; one event per record, in order, each describing its record; the k-th event on a day keyed (day, k); digested texts pairwise distinct |
| Assembly.CancelMarksFollowTitle | src/sync_calendar.py:189-191 | for records from `parse_events`, an event has `STATUS:CANCELLED` and `METHOD:CANCEL` iff its name holds the keyword in some case |
| Pipeline.Run | src/sync_calendar.py:210-211 | a run produces a calendar iff no fragment raises; it has the fixed PRODID and VERSION and at most one event per fragment |
| Pipeline.RunFailsAtFirstAbort | src/sync_calendar.py:210-211 | a failed run reports the error of the first fragment that raises |
| Pipeline.RunEvents | src/sync_calendar.py:210-211 | events follow the kept fragments in page order; each event's name is its fragment's title; it starts in 2023 or later; it is cancelled iff its name holds the keyword; other fragments were skipped; digested texts are distinct |
| Pipeline.NotCancelledWithout | src/sync_calendar.py:125 | a title lacking one of the keyword's letters in both cases is not cancelled |
| Pipeline.OneDaySpelled | src/sync_calendar.py:41-48 | a spelled-out one-day date parses to the same date at both ends |
| Pipeline.SpelledHasNoRange | src/sync_calendar.py:42 | a spelled-out date with no `-` in weekday or month takes the single-date branch |
| Pipeline.ExampleTexts | src/sync_calendar.py:41-75 | concrete texts: `Søndag d. 5. marts 2023` is 5/3/2023 at both ends; `19:00 - 21:00` is 19:00 to 21:00 |
| Pipeline.WellFormedKept | src/sync_calendar.py:86-126 | an element laid out as title, date and time with a current, valid date is kept with those instants |
| Pipeline.StaleLaidOutSkipped | src/sync_calendar.py:95-96 | a laid-out event before 2023 is skipped whatever its time text |
| Pipeline.ImpossibleLaidOutAborts | src/sync_calendar.py:104-118 | a laid-out event naming no moment that can be built and localized raises that step's error |
| Pipeline.ConcertKept | src/sync_calendar.py:86-126 | a concrete current concert is kept, not cancelled |
| Pipeline.FifthOfMarchInstants | src/sync_calendar.py:104-118 | any valid time of day on 5 March 2023 builds and localizes to that day at that time |
| Pipeline.CancelledKept | src/sync_calendar.py:125 | a title with `AFLYST` in upper case is kept as cancelled |
| Pipeline.StaleSkipped | src/sync_calendar.py:95-100 | a 2022 event whose time text is no time at all is skipped, not raised |
| Pipeline.AprilHasThirtyDays | src/sync_calendar.py:104-110 | 31 April 2023 at any hour is rejected by `datetime()`: `InvalidInstant` when hour and minute fit a C `int`, `OutOfRange` otherwise |
| Pipeline.HugeYearOverflows | src/sync_calendar.py:104-110 | an eleven-digit start year raises `OutOfRange` from `datetime()`, whatever the other fields |
| Pipeline.LastDayOverflows | src/sync_calendar.py:104-110 | 31 December 9999 at any valid time is a valid `datetime`, but localizing it raises `OutOfRange` |
| Pipeline.NoSuchDayAborts | src/sync_calendar.py:104-118 | `d. 31. april 2023` raises `InvalidInstant` |
| Pipeline.SkipKeepKeep | src/sync_calendar.py:81-128 | a skip followed by two keeps yields those two records in order |
| Pipeline.KeepAbort | src/sync_calendar.py:81-128 | a raise after a kept fragment fails the run, whatever follows |
| Pipeline.SameDayRecords | src/sync_calendar.py:78-128 | a concrete page of a stale and two current events yields the two current records in page order |
| Pipeline.TwoOnOneDay | src/sync_calendar.py:175-182 | two records on one day are keyed (day, 1) and (day, 2) |
| Pipeline.FifthOfMarch | src/sync_calendar.py:132 | 5 March 2023 prints as `2023-03-05` |
| Pipeline.SameDayPage | src/sync_calendar.py:166-211 | on that concrete page the run succeeds with two events digesting `2023-03-05:1` and `2023-03-05:2`; only the second is marked cancelled |
| Pipeline.OneBadFragmentEndsRun | src/sync_calendar.py:210-211 | one impossible date anywhere on the page ends the run with `InvalidInstant`, including valid events before it |

## Left out

- The HTTP request and the credentials it sends (lines 205-208) are left out. `Pipeline.Run` starts from the selected elements.
- The markup parser is not modelled. BeautifulSoup and `.calendar-event-title` selection are represented as a list of fragments, each the `contents` of one selected element. A child is a text node or an element with children.
- The UTC offset `TIMEZONE.localize` picks is not modelled. `Civil.Localize` keeps the civil fields and models only its overflow on the first and last representable day.
- `datetime.datetime.now()` (line 173) is the parameter `now`.
- The MD5 digest and UUID shaping (lines 140-142) are the parameter `digest`. The model reasons about the text that is hashed. Distinct texts giving distinct UUIDs is MD5's collision resistance, and is not proved.
- `get_vtimezone` (lines 145-163) is not modelled. It is a constant component.
- iCalendar serialisation and the file write (lines 198-200) are not modelled.
- Numerals.ParseInt: only accepts an optional sign and ASCII digits. Python's `int()` also allows surrounding whitespace, underscores between digits and non-ASCII digits. Those texts fail in the model.
- Numerals.ParseInt: has no digit-count limit. Since Python 3.11 (and security releases of 3.7-3.10), `int()` raises ValueError for decimal text longer than the interpreter's limit, 4300 digits by default. The limit depends on the interpreter version and on `sys.set_int_max_str_digits` or `PYTHONINTMAXSTRDIGITS`, not on this code. So a date with a day or year of more than 4300 digits raises at line 62 or 64 in Python, but parses in the model.
- Text.Lower: covers ASCII and the Latin-1 capitals (`Æ`, `Ø`, `Å`, ...). It does not cover Python's full Unicode case mapping.
- Extract.Examine: a markup element where a string is expected fails with `NotText`, where Python raises `TypeError` or `AttributeError`. The fragment fails the run in both.
- DateText.ParseDate: the no-separator branch of `parse_date` parses the same text twice, once for the start and once for the end. The model parses it once and uses it for both ends, which gives the same result.
- Extract.Examine: the guard `if title and date_text and time_text` (line 120) is always true at that point. It is not a separate branch.
- Civil.MakeDateTime: seconds, microseconds and time zone fields are not modelled. The source never passes them.

=== FILE: calendar.dfy ===
/** Building the calendar from the extracted records: `eventdata_to_calendar`
    in src/sync_calendar.py. Each record becomes one VEVENT, in order; a
    cancelled record is marked `METHOD:CANCEL` and `STATUS:CANCELLED`.

    The time-zone component, the iCalendar serialisation and the MD5/UUID
    digest are not modelled: the digest is a parameter `digest`, applied to
    the text `get_uuid` hashes, and the `now` stamp is a parameter too. */
module Assembly {
  import opened Outcome
  import opened Civil
  import opened Extract
  import opened Identity

  const ProdId := "-//grundfoskoret-calendar//grundfoskoret.dk//"
  const Version := "2.0"
  const CancelMethod := "CANCEL"
  const CancelStatus := "CANCELLED"

  /** One VEVENT: `uid` is the digest of the text of `key`. */
  datatype Entry<U> = Entry(
    uid: U,
    key: UidKey,
    stamp: CivilDateTime,
    name: string,
    description: string,
    start: CivilDateTime,
    end: CivilDateTime,
    icalMethod: Option<string>,
    status: Option<string>)

  /** The VCALENDAR: its PRODID and VERSION properties and its events. */
  datatype Calendar<U> = Calendar(prodid: string, version: string, events: seq<Entry<U>>)

  /** The start instants of the records, in order: what the uid loop sees. */
  function Starts(records: seq<Record>): (starts: seq<CivilDateTime>)
    ensures |starts| == |records|
    ensures forall i :: 0 <= i < |records| ==> starts[i] == records[i].start
  {
    seq(|records|, i requires 0 <= i < |records| => records[i].start)
  }

  /** `e` is the event written for `r`: title as name and description, the
      record's instants, the run's stamp, the digest of its own key's text,
      and the cancellation marks exactly when the record is cancelled. */
  predicate Describes<U(==)>(e: Entry<U>, r: Record, now: CivilDateTime, digest: string -> U) {
    && e.uid == digest(UidSource(e.key))
    && e.stamp == now
    && e.name == r.title
    && e.description == r.title
    && e.start == r.start
    && e.end == r.end
    && (r.cancelled ==> e.icalMethod == Some(CancelMethod) && e.status == Some(CancelStatus))
    && (!r.cancelled ==> e.icalMethod == None && e.status == None)
  }

  /** The body of the loop for one record, given the counters so far. */
  function EntryFor<U(==)>(r: Record, counters: map<string, int>, now: CivilDateTime, digest: string -> U): (p: (Entry<U>, map<string, int>))
    ensures Describes(p.0, r, now, digest)
    ensures p.0.key == GetUuid(r.start, counters).0
    ensures p.1 == GetUuid(r.start, counters).1
  {
    var (key, next) := GetUuid(r.start, counters);
    var cancelled := if r.cancelled then Some(CancelMethod) else None;
    var status := if r.cancelled then Some(CancelStatus) else None;
    (Entry(digest(UidSource(key)), key, now, r.title, r.title, r.start, r.end, cancelled, status), next)
  }

  /** The loop over the records, threading the uid counters. */
  function Entries<U(==)>(records: seq<Record>, counters: map<string, int>, now: CivilDateTime, digest: string -> U): (es: seq<Entry<U>>)
    ensures |es| == |records|
    ensures forall i :: 0 <= i < |records| ==> Describes(es[i], records[i], now, digest)
  {
    if |records| == 0 then []
    else
      var (entry, next) := EntryFor(records[0], counters, now, digest);
      [entry] + Entries(records[1..], next, now, digest)
  }

  /** One turn of the loop: the first event is the first record's, and the
      rest are the rest's, written with the counters `get_uuid` left. */
  lemma EntriesStep<U>(records: seq<Record>, counters: map<string, int>, now: CivilDateTime, digest: string -> U, i: nat)
    requires 0 < i < |records|
    ensures Entries(records, counters, now, digest)[i]
         == Entries(records[1..], GetUuid(records[0].start, counters).1, now, digest)[i - 1]
  {
  }

  /** One turn of the key loop over the start instants. */
  lemma UidKeysStep(records: seq<Record>, counters: map<string, int>, i: nat)
    requires 0 < i < |records|
    ensures UidKeys(Starts(records), counters)[i]
         == UidKeys(Starts(records[1..]), GetUuid(records[0].start, counters).1)[i - 1]
  {
    assert Starts(records)[1..] == Starts(records[1..]);
  }

  /** The loop hands out `get_uuid`'s keys, record by record. */
  lemma {:induction false} EntriesFollowKeys<U>(records: seq<Record>, counters: map<string, int>, now: CivilDateTime, digest: string -> U)
    ensures forall i :: 0 <= i < |records| ==>
      Entries(records, counters, now, digest)[i].key == UidKeys(Starts(records), counters)[i]
  {
    if |records| > 0 {
      var next := GetUuid(records[0].start, counters).1;
      EntriesFollowKeys(records[1..], next, now, digest);
      forall i | 0 < i < |records|
        ensures Entries(records, counters, now, digest)[i].key == UidKeys(Starts(records), counters)[i]
      {
        EntriesStep(records, counters, now, digest, i);
        UidKeysStep(records, counters, i);
      }
    }
  }

  /** In one run the `k`-th event on a day is keyed `(day, k)`. */
  lemma EntriesNumberEachDay<U>(records: seq<Record>, now: CivilDateTime, digest: string -> U)
    ensures forall i :: 0 <= i < |records| ==>
      Entries(records, map[], now, digest)[i].key
        == UidKey(IsoDate(records[i].start), Occurrences(Starts(records)[..i], records[i].start) + 1)
  {
    EntriesFollowKeys(records, map[], now, digest);
    UidKeysNumberEachDay(Starts(records));
  }

  /** In one run no two events digest the same text. */
  lemma EntriesDistinct<U>(records: seq<Record>, now: CivilDateTime, digest: string -> U)
    ensures forall i, j :: 0 <= i < j < |records| ==>
      UidSource(Entries(records, map[], now, digest)[i].key) != UidSource(Entries(records, map[], now, digest)[j].key)
  {
    EntriesFollowKeys(records, map[], now, digest);
    UidKeysDistinct(Starts(records));
  }

  /** `eventdata_to_calendar`: the fixed PRODID and VERSION, one event per
      record in the records' order, each describing its record; the `k`-th
      event on a day is keyed `(day, k)`, so no two events digest the same
      text. */
  function EventdataToCalendar<U(==)>(records: seq<Record>, now: CivilDateTime, digest: string -> U): (c: Calendar<U>)
    ensures c.prodid == ProdId && c.version == Version
    ensures |c.events| == |records|
    ensures forall i :: 0 <= i < |records| ==> Describes(c.events[i], records[i], now, digest)
    ensures forall i :: 0 <= i < |records| ==>
      c.events[i].key == UidKey(IsoDate(records[i].start), Occurrences(Starts(records)[..i], records[i].start) + 1)
    ensures forall i, j :: 0 <= i < j < |records| ==> UidSource(c.events[i].key) != UidSource(c.events[j].key)
  {
    EntriesNumberEachDay(records, now, digest);
    EntriesDistinct(records, now, digest);
    Calendar(ProdId, Version, Entries(records, map[], now, digest))
  }

  /** An event carries the cancellation marks exactly when its record is
      cancelled, that is, when "aflyst" occurs in its title in any letter
      case. */
  lemma CancelMarksFollowTitle<U>(records: seq<Record>, now: CivilDateTime, digest: string -> U)
    requires forall i :: 0 <= i < |records| ==> records[i].cancelled == IsCancelled(records[i].title)
    ensures var c := EventdataToCalendar(records, now, digest);
      forall i :: 0 <= i < |c.events| ==>
        (c.events[i].status == Some(CancelStatus) <==> IsCancelled(c.events[i].name))
        && (c.events[i].icalMethod == Some(CancelMethod) <==> IsCancelled(c.events[i].name))
  {
  }
}

=== FILE: civil.dfy ===
/** Civil (wall-clock) date-times as Python's `datetime.datetime` accepts
    them, and the ISO date text `date().isoformat()` prints.

    Attaching the Europe/Copenhagen zone with pytz `localize` changes none
    of the civil fields; the UTC offset it picks is not part of this model.
    What is modelled is how it can fail: it looks at the wall-clock time one
    day before and one day after, and that step overflows on the first and
    the last day `datetime` can hold. */
module Civil {
  import opened Outcome
  import opened Numerals

  /** `datetime.MINYEAR` and `datetime.MAXYEAR`. */
  const MinYear := 1
  const MaxYear := 9999

  datatype DateTime = DateTime(year: int, month: int, day: int, hour: int, minute: int)

  /** Gregorian leap years, as Python's `calendar.isleap`. */
  predicate IsLeapYear(year: int) {
    year % 4 == 0 && (year % 100 != 0 || year % 400 == 0)
  }

  /** Length of a month in the proleptic Gregorian calendar. */
  function DaysInMonth(year: int, month: int): (n: int)
    requires 1 <= month <= 12
    ensures 28 <= n <= 31
    ensures n == 31 <==> month in {1, 3, 5, 7, 8, 10, 12}
    ensures n == 30 <==> month in {4, 6, 9, 11}
    ensures n == 29 <==> month == 2 && IsLeapYear(year)
  {
    [31, if IsLeapYear(year) then 29 else 28, 31, 30, 31, 30, 31, 31, 30, 31, 30, 31][month - 1]
  }

  /** The field ranges `datetime.datetime(year, month, day, hour, minute)`
      accepts without raising ValueError. */
  predicate IsValid(dt: DateTime) {
    && MinYear <= dt.year <= MaxYear
    && 1 <= dt.month <= 12
    && 1 <= dt.day <= DaysInMonth(dt.year, dt.month)
    && 0 <= dt.hour <= 23
    && 0 <= dt.minute <= 59
  }

  /** A constructed `datetime` object: valid by construction. */
  type CivilDateTime = dt: DateTime | IsValid(dt) witness DateTime(1, 1, 1, 0, 0)

  /** The range of a C `int`, into which CPython's `datetime` converts each
      of its arguments before it checks any field range. */
  const CIntMin := -0x8000_0000
  const CIntMax := 0x7fff_ffff

  predicate FitsCInt(x: int) {
    CIntMin <= x <= CIntMax
  }

  /** Every field converts to a C `int`. */
  predicate FieldsFit(dt: DateTime) {
    FitsCInt(dt.year) && FitsCInt(dt.month) && FitsCInt(dt.day) && FitsCInt(dt.hour) && FitsCInt(dt.minute)
  }

  /** `datetime.datetime(year=..., month=..., day=..., hour=..., minute=...)`:
      the instant; OverflowError when some field does not even fit a C
      `int`; otherwise ValueError when the fields do not name a real moment. */
  function MakeDateTime(year: int, month: int, day: int, hour: int, minute: int): (r: Result<CivilDateTime>)
    ensures r.Ok? <==>
      && 1 <= year <= 9999
      && 1 <= month <= 12
      && 1 <= day <= DaysInMonth(year, month)
      && 0 <= hour < 24
      && 0 <= minute < 60
    ensures r.Ok? ==> r.value == DateTime(year, month, day, hour, minute)
    ensures !FieldsFit(DateTime(year, month, day, hour, minute)) ==> r == Fail(OutOfRange)
    ensures r.Fail? && FieldsFit(DateTime(year, month, day, hour, minute)) ==> r.error == InvalidInstant
  {
    var dt := DateTime(year, month, day, hour, minute);
    if !FieldsFit(dt) then Fail(OutOfRange)
    else if IsValid(dt) then Ok(dt)
    else Fail(InvalidInstant)
  }

  /** `dt + timedelta(days=1)` before its year-range check: the next
      calendar day at the same time of day. */
  function DayAfter(dt: CivilDateTime): DateTime {
    if dt.day < DaysInMonth(dt.year, dt.month) then dt.(day := dt.day + 1)
    else if dt.month < 12 then dt.(month := dt.month + 1, day := 1)
    else dt.(year := dt.year + 1, month := 1, day := 1)
  }

  /** `dt - timedelta(days=1)` before its year-range check. */
  function DayBefore(dt: CivilDateTime): DateTime {
    if dt.day > 1 then dt.(day := dt.day - 1)
    else if dt.month > 1 then dt.(month := dt.month - 1, day := DaysInMonth(dt.year, dt.month - 1))
    else dt.(year := dt.year - 1, month := 12, day := 31)
  }

  /** The first and the last day `datetime` can hold. */
  predicate AtRangeEdge(dt: DateTime) {
    || (dt.year == MinYear && dt.month == 1 && dt.day == 1)
    || (dt.year == MaxYear && dt.month == 12 && dt.day == 31)
  }

  /** pytz `localize` with its default `is_dst=False`: the civil fields stay
      as they are, but the probes a day either side raise OverflowError
      when they leave the years `datetime` holds, which happens exactly on
      the first and the last representable day. */
  function Localize(dt: CivilDateTime): (r: Result<CivilDateTime>)
    ensures r.Ok? <==> !AtRangeEdge(dt)
    ensures r.Ok? ==> r.value == dt
    ensures r.Fail? ==> r.error == OutOfRange
  {
    if IsValid(DayBefore(dt)) && IsValid(DayAfter(dt)) then Ok(dt) else Fail(OutOfRange)
  }

  /** Both calendar fields of `a` and `b` name the same day. */
  predicate SameDay(a: DateTime, b: DateTime) {
    a.year == b.year && a.month == b.month && a.day == b.day
  }

  /** `dt.date().isoformat()`: `YYYY-MM-DD`, each field zero-padded. */
  function IsoDate(dt: CivilDateTime): (r: string)
    ensures |r| == 10 && r[4] == '-' && r[7] == '-'
  {
    assert Pow10(2) == 100 && Pow10(4) == 10000;
    Pad(dt.year, 4) + "-" + Pad(dt.month, 2) + "-" + Pad(dt.day, 2)
  }

  /** The three digit groups of the ISO date read back as the year, month
      and day. */
  lemma IsoDateFields(dt: CivilDateTime)
    ensures AllDigits(IsoDate(dt)[..4]) && DigitsValue(IsoDate(dt)[..4]) == dt.year
    ensures AllDigits(IsoDate(dt)[5..7]) && DigitsValue(IsoDate(dt)[5..7]) == dt.month
    ensures AllDigits(IsoDate(dt)[8..]) && DigitsValue(IsoDate(dt)[8..]) == dt.day
  {
    assert Pow10(2) == 100 && Pow10(4) == 10000;
    var y := Pad(dt.year, 4);
    var m := Pad(dt.month, 2);
    var d := Pad(dt.day, 2);
    var r := IsoDate(dt);
    assert r == y + "-" + m + "-" + d;
    assert r[..4] == y && r[5..7] == m && r[8..] == d;
  }

  /** Two instants print the same ISO date exactly when they fall on the
      same calendar day. */
  lemma IsoDateIdentifiesDay(a: CivilDateTime, b: CivilDateTime)
    ensures IsoDate(a) == IsoDate(b) <==> SameDay(a, b)
  {
    var ia, ib := IsoDate(a), IsoDate(b);
    IsoDateFields(a);
    IsoDateFields(b);
    if ia == ib {
      assert ia[..4] == ib[..4] && ia[5..7] == ib[5..7] && ia[8..] == ib[8..];
    }
  }
}

=== FILE: date_text.dfy ===
/** The date-text parser: `parse_single_date`, `parse_date` and
    `parse_double_date` in src/sync_calendar.py. It reads Danish date text
    such as `Søndag d. 5. marts 2023` or `d. 5. marts 2023 - d. 7. marts 2023`
    into a start and an end (day, month, year) triple. Nothing here checks
    ranges: a day of 0 or 45 passes and is rejected later by the civil
    date-time check. */
module DateText {
  import opened Outcome
  import opened Text
  import opened Numerals
  import opened Months

  /** The marker that precedes the day number; any weekday before it is
      discarded. */
  const DayMarker := "d. "

  datatype Date = Date(day: int, month: int, year: int)

  datatype DateRange = DateRange(start: Date, end: Date)

  /** `int(token)`, raising ValueError on anything but integer text. */
  function IntToken(token: string): (r: Result<int>)
    ensures r.Ok? <==> IsIntegerText(token)
    ensures r.Ok? ==> Some(r.value) == ParseInt(token)
    ensures r.Fail? ==> r.error == NotAnInteger
  {
    OrFail(ParseInt(token), NotAnInteger)
  }

  /** `MONTH_MAP[token.lower()]`, raising KeyError on an unknown name. */
  function MonthToken(token: string): (r: Result<int>)
    ensures r.Ok? <==> MonthNumber(token).Some?
    ensures r.Ok? ==> 1 <= r.value <= 12 && Some(r.value) == MonthNumber(token)
    ensures r.Fail? ==> r.error == UnknownMonth
  {
    OrFail(MonthNumber(token), UnknownMonth)
  }

  /** `parse_single_date`: keep what follows the first `d. `, split it on
      single spaces into exactly three tokens, and read the day (all dots
      removed), the month name and the year. */
  function ParseSingleDate(text: string): (r: Result<Date>)
    ensures !Contains(text, DayMarker) ==> r == Fail(UnpackMismatch)
    ensures r.Ok? ==> 1 <= r.value.month <= 12
  {
    var tokens := Split(After(text, DayMarker), " ");
    if |tokens| != 3 then Fail(UnpackMismatch)
    else
      var day :- IntToken(RemoveChar(tokens[0], '.'));
      var month :- MonthToken(tokens[1]);
      var year :- IntToken(tokens[2]);
      Ok(Date(day, month, year))
  }

  /** A single date parses exactly when the text after the first `d. ` is
      three space-separated tokens: integer text once its dots are removed,
      a known month name, and integer text; the parts are what those tokens
      denote. */
  lemma SingleDateTokens(text: string)
    ensures var r := ParseSingleDate(text);
      var tokens := Split(After(text, DayMarker), " ");
      && (r.Ok? <==>
        && |tokens| == 3
        && IsIntegerText(RemoveChar(tokens[0], '.'))
        && MonthNumber(tokens[1]).Some?
        && IsIntegerText(tokens[2]))
      && (r.Ok? ==>
        && ParseInt(RemoveChar(tokens[0], '.')) == Some(r.value.day)
        && MonthNumber(tokens[1]) == Some(r.value.month)
        && ParseInt(tokens[2]) == Some(r.value.year))
  {
  }

  /** `parse_date` with `parse_double_date`: text with ` - ` is a range whose
      two halves are parsed separately; text without it is a one-day date
      used for both ends. */
  function ParseDate(text: string): (r: Result<DateRange>)
    ensures r.Ok? ==> 1 <= r.value.start.month <= 12 && 1 <= r.value.end.month <= 12
  {
    if Contains(text, RangeSeparator) then
      var halves := Split(text, RangeSeparator);
      if |halves| != 2 then Fail(UnpackMismatch)
      else
        var start :- ParseSingleDate(halves[0]);
        var end :- ParseSingleDate(halves[1]);
        Ok(DateRange(start, end))
    else
      var date :- ParseSingleDate(text);
      Ok(DateRange(date, date))
  }

  /** Without ` - ` the text is one date, which becomes both the start and
      the end. */
  lemma OneDayDate(text: string)
    requires !Contains(text, RangeSeparator)
    ensures ParseDate(text).Ok? <==> ParseSingleDate(text).Ok?
    ensures ParseDate(text).Ok? ==>
      ParseDate(text).value.start == ParseDate(text).value.end == ParseSingleDate(text).value
  {
  }

  /** With exactly one ` - ` the start comes from the left half and the end
      from the right half; both halves must parse. */
  lemma TwoHalfDate(text: string)
    requires Contains(text, RangeSeparator)
    ensures var halves := Split(text, RangeSeparator);
      |halves| == 2 ==>
      && (ParseDate(text).Ok? <==> ParseSingleDate(halves[0]).Ok? && ParseSingleDate(halves[1]).Ok?)
      && (ParseDate(text).Ok? ==>
          ParseDate(text).value == DateRange(ParseSingleDate(halves[0]).value, ParseSingleDate(halves[1]).value))
  {
  }

  /** A text that `split(" - ")` cuts into more than two parts fails the
      two-way unpack. Overlapping separators count once: `a - - b` splits
      into two parts only. */
  lemma ManySeparatorsFail(text: string)
    requires |Split(text, RangeSeparator)| > 2
    ensures ParseDate(text) == Fail(UnpackMismatch)
  {
  }

  /** In `prefix + "d. " + rest` the marker is first found right after a
      prefix that does not contain it: a later `d` cannot complete an
      earlier partial match, since the marker holds only one `d`. */
  lemma MarkerFoundAfterPrefix(prefix: string, rest: string)
    requires !Contains(prefix, DayMarker)
    ensures After(prefix + DayMarker + rest, DayMarker) == rest
  {
    var s := prefix + DayMarker + rest;
    forall j | 0 <= j < |prefix|
      ensures !OccursAt(s, DayMarker, j)
    {
      if j + 3 <= |prefix| {
        assert s[j..j + 3] == prefix[j..j + 3];
        assert !OccursAt(prefix, DayMarker, j);
      } else {
        var k := |prefix| - j;
        assert s[j..j + 3][k] == 'd' != DayMarker[k];
      }
    }
    FindAtFirst(prefix, DayMarker, rest);
  }

  /** The three space-separated tokens of a spelled-out single date. */
  lemma SpelledDateTokens(prefix: string, dayText: string, name: string, yearText: string)
    requires !Contains(prefix, DayMarker)
    requires IsIntegerText(dayText) && IsIntegerText(yearText)
    requires MonthNumber(name).Some?
    ensures Split(After(prefix + DayMarker + dayText + ". " + name + " " + yearText, DayMarker), " ")
         == [dayText + ".", name, yearText]
  {
    var rest := dayText + ". " + name + " " + yearText;
    MarkedLayout(prefix, dayText, name, yearText);
    MarkerFoundAfterPrefix(prefix, rest);
    DateTokens(dayText, name, yearText);
  }

  /** Solver helper: a marked date text regrouped as the prefix and marker
      followed by the rest. Kept apart from `SpelledDateTokens` so that
      this associativity step is proved in a small context. */
  lemma MarkedLayout(prefix: string, dayText: string, name: string, yearText: string)
    ensures prefix + DayMarker + dayText + ". " + name + " " + yearText
         == prefix + DayMarker + (dayText + ". " + name + " " + yearText)
  {
  }

  /** A word and a space-free token split back apart at the space. */
  lemma TwoTokens(word: string, token: string)
    requires ' ' !in word && ' ' !in token
    ensures Split(word + " " + token, " ") == [word, token]
  {
    SplitAtChar(word, ' ', token);
    AbsentCharAbsentPattern(token, " ", 0);
    SplitWhole(token, " ");
  }

  /** Solver helper: how a spelled-out date groups around its first space.
      Kept apart from `DateTokens` so that this sequence equality is proved
      in a small context. */
  lemma DateLayout(dayText: string, name: string, yearText: string)
    ensures dayText + ". " + name + " " + yearText == (dayText + ".") + [' '] + (name + " " + yearText)
  {
  }

  /** `5. marts 2023` splits on spaces into `5.`, `marts` and `2023`. */
  lemma DateTokens(dayText: string, name: string, yearText: string)
    requires IsIntegerText(dayText) && IsIntegerText(yearText)
    requires MonthNumber(name).Some?
    ensures Split(dayText + ". " + name + " " + yearText, " ") == [dayText + ".", name, yearText]
  {
    var dayToken := dayText + ".";
    var tail := name + " " + yearText;
    IntegerTextShape(dayText);
    IntegerTextShape(yearText);
    MonthNameIsOneWord(name);
    TwoTokens(name, yearText);
    DateLayout(dayText, name, yearText);
    SplitAtChar(dayToken, ' ', tail);
  }

  /** Spelled-out single dates parse back to their parts: whatever precedes
      `d. ` (a weekday, say) is ignored, the day's trailing dot is dropped
      and the month name may be in any letter case. */
  lemma SingleDateRoundTrip(prefix: string, dayText: string, name: string, yearText: string)
    requires !Contains(prefix, DayMarker)
    requires IsIntegerText(dayText) && IsIntegerText(yearText)
    requires MonthNumber(name).Some?
    ensures ParseSingleDate(prefix + DayMarker + dayText + ". " + name + " " + yearText)
         == Ok(Date(ParseInt(dayText).value, MonthNumber(name).value, ParseInt(yearText).value))
  {
    SpelledDateTokens(prefix, dayText, name, yearText);
    SingleDateTokens(prefix + DayMarker + dayText + ". " + name + " " + yearText);
    IntegerTextShape(dayText);
    RemoveCharAppend(dayText, ".", '.');
    assert RemoveChar(dayText + ".", '.') == dayText;
  }

  /** A range `a - b` parses as its two halves parsed on their own, provided
      neither half contains ` - ` and `a` does not end in ` -` (which would
      make the separator start one character early). */
  lemma RangeRoundTrip(a: string, b: string)
    requires !Contains(a, RangeSeparator) && !Contains(b, RangeSeparator)
    requires !(|a| >= 2 && a[|a| - 2..] == " -")
    ensures var r := ParseDate(a + RangeSeparator + b);
      && (r.Ok? <==> ParseSingleDate(a).Ok? && ParseSingleDate(b).Ok?)
      && (r.Ok? ==> r.value == DateRange(ParseSingleDate(a).value, ParseSingleDate(b).value))
  {
    SplitRange(a, b);
    assert Contains(a + RangeSeparator + b, RangeSeparator) by {
      assert OccursAt(a + RangeSeparator + b, RangeSeparator, |a|);
    }
    TwoHalfDate(a + RangeSeparator + b);
  }
}

=== FILE: extract.dfy ===
/** Event extraction: the loop of `parse_events` in src/sync_calendar.py.

    The markup parser and the `.calendar-event-title` selection are not
    modelled; what the loop sees of each selected element is its list of
    children, each either a text node or an element with children of its
    own. The loop has three outcomes per fragment: skip it (an explicit
    `continue`), keep a record, or raise. Nothing is caught, so a raise in
    any fragment ends the whole run. */
module Extract {
  import opened Outcome
  import opened Text
  import opened Civil
  import opened DateText
  import opened TimeText

  /** Events whose start year is earlier than this are dropped as stale. */
  const CutoffYear := 2023

  /** A title containing this word, in any letter case, marks a cancellation. */
  const CancelKeyword := "aflyst"

  /** One child of a selected element: a text node (a string) or an element
      with its own `contents`. */
  datatype Node = TextNode(text: string) | ElementNode(contents: seq<Node>)

  /** The `contents` list of one selected element. */
  type Fragment = seq<Node>

  datatype Record = Record(title: string, start: CivilDateTime, end: CivilDateTime, cancelled: bool)

  /** What one pass of the loop does with a fragment. */
  datatype Step = Skip | Keep(record: Record) | Abort(error: Error)

  /** Python truthiness of a child: an empty string is false, an element is
      always true. */
  function Truthy(n: Node): (b: bool)
    ensures b <==> n != TextNode("")
  {
    match n
    case TextNode(s) => |s| > 0
    case ElementNode(_) => true
  }

  /** `n.contents[0]`: a text node has no `contents`, an empty element has
      no first child. */
  function FirstContent(n: Node): (r: Result<Node>)
    ensures r.Ok? <==> n.ElementNode? && |n.contents| > 0
    ensures r.Ok? ==> r.value == n.contents[0]
    ensures r.Fail? ==> r.error == NoContents
  {
    match n
    case TextNode(_) => Fail(NoContents)
    case ElementNode(cs) => if |cs| == 0 then Fail(NoContents) else Ok(cs[0])
  }

  /** The string a text node holds; string methods fail on an element. */
  function TextOf(n: Node): (r: Result<string>)
    ensures r.Ok? <==> n.TextNode?
    ensures r.Ok? ==> r.value == n.text
    ensures r.Fail? ==> r.error == NotText
  {
    match n
    case TextNode(s) => Ok(s)
    case ElementNode(_) => Fail(NotText)
  }

  /** The text of an element whose first child is a text node: how the date
      and the time are laid out on the calendar page. */
  function InnerText(n: Node): Option<string> {
    if n.ElementNode? && |n.contents| > 0 && n.contents[0].TextNode? then Some(n.contents[0].text) else None
  }

  /** `"aflyst" in title.lower()`: some stretch of the title spells the
      keyword in any mix of upper and lower case, so `AFLYST` and `Aflyst`
      count. */
  function IsCancelled(title: string): (b: bool)
    ensures b <==> exists i :: KeywordAt(title, i)
  {
    CancelledIffKeywordInAnyCase(title);
    Contains(Lower(title), CancelKeyword)
  }

  /** The keyword, in some letter case, starts at index `i` of `title`. */
  predicate KeywordAt(title: string, i: int) {
    0 <= i && i + |CancelKeyword| <= |title| && Lower(title[i..i + |CancelKeyword|]) == CancelKeyword
  }

  /** The keyword occurs in the lower-cased title exactly where some
      stretch of the title spells it in any letter case. */
  lemma CancelledIffKeywordInAnyCase(title: string)
    ensures Contains(Lower(title), CancelKeyword) <==> exists i :: KeywordAt(title, i)
  {
    var low := Lower(title);
    forall i | 0 <= i && i + |CancelKeyword| <= |title|
      ensures OccursAt(low, CancelKeyword, i) <==> KeywordAt(title, i)
    {
      assert low[i..i + |CancelKeyword|] == Lower(title[i..i + |CancelKeyword|]);
    }
  }

  /** The civil fields of the event's start: the start date at the start
      time. */
  function StartFields(dates: DateRange, times: TimeRange): DateTime {
    DateTime(dates.start.year, dates.start.month, dates.start.day, times.startHour, times.startMinute)
  }

  /** The civil fields of the event's end: the end date at the end time. */
  function EndFields(dates: DateRange, times: TimeRange): DateTime {
    DateTime(dates.end.year, dates.end.month, dates.end.day, times.endHour, times.endMinute)
  }

  /** Both instants of an event, in source order: the start is built by
      `datetime()` and localized, then the end. Either step of either
      instant can raise, and the first one that does decides the error. */
  function Instants(dates: DateRange, times: TimeRange): (r: Result<(CivilDateTime, CivilDateTime)>)
    ensures r.Ok? <==>
      && IsValid(StartFields(dates, times)) && !AtRangeEdge(StartFields(dates, times))
      && IsValid(EndFields(dates, times)) && !AtRangeEdge(EndFields(dates, times))
    ensures r.Ok? ==> r.value.0 == StartFields(dates, times) && r.value.1 == EndFields(dates, times)
    ensures !FieldsFit(StartFields(dates, times)) ==> r == Fail(OutOfRange)
    ensures FieldsFit(StartFields(dates, times)) && !IsValid(StartFields(dates, times)) ==> r == Fail(InvalidInstant)
    ensures IsValid(StartFields(dates, times)) && AtRangeEdge(StartFields(dates, times)) ==> r == Fail(OutOfRange)
    ensures IsValid(StartFields(dates, times)) && !AtRangeEdge(StartFields(dates, times)) ==>
      && (!FieldsFit(EndFields(dates, times)) ==> r == Fail(OutOfRange))
      && (FieldsFit(EndFields(dates, times)) && !IsValid(EndFields(dates, times)) ==> r == Fail(InvalidInstant))
      && (IsValid(EndFields(dates, times)) && AtRangeEdge(EndFields(dates, times)) ==> r == Fail(OutOfRange))
  {
    var start :- MakeDateTime(dates.start.year, dates.start.month, dates.start.day, times.startHour, times.startMinute);
    var localStart :- Localize(start);
    var end :- MakeDateTime(dates.end.year, dates.end.month, dates.end.day, times.endHour, times.endMinute);
    var localEnd :- Localize(end);
    Ok((localStart, localEnd))
  }

  /** The loop body, in source order: `Ok(None)` is a `continue`, `Ok(Some(r))`
      appends `r`, and `Fail(e)` is an escaping exception. */
  function Examine(f: Fragment): (r: Result<Option<Record>>)
    ensures |f| < 3 || !Truthy(f[0]) ==> r == Ok(None)
    ensures |f| >= 3 && Truthy(f[0]) && FirstContent(f[1]).Fail? ==> r == Fail(NoContents)
    ensures |f| >= 3 && Truthy(f[0]) && InnerText(f[1]) == Some("") ==> r == Ok(None)
  {
    if |f| < 3 then Ok(None)
    else if !Truthy(f[0]) then Ok(None)
    else
      var dateNode :- FirstContent(f[1]);
      if !Truthy(dateNode) then Ok(None)
      else
        var dateText :- TextOf(dateNode);
        var dates :- ParseDate(dateText);
        if dates.start.year < CutoffYear then Ok(None)
        else
          var timeNode :- FirstContent(f[2]);
          if !Truthy(timeNode) then Ok(None)
          else
            var timeText :- TextOf(timeNode);
            var times :- ParseTime(timeText);
            var instants :- Instants(dates, times);
            var title :- TextOf(f[0]);
            Ok(Some(Record(title, instants.0, instants.1, IsCancelled(title))))
  }

  /** What one fragment contributes to the run. */
  function ExamineFragment(f: Fragment): (s: Step)
    ensures |f| < 3 ==> s == Skip
    ensures |f| >= 3 && f[0] == TextNode("") ==> s == Skip
    ensures |f| >= 3 && Truthy(f[0]) && InnerText(f[1]) == Some("") ==> s == Skip
    ensures s.Keep? ==>
      && f[0] == TextNode(s.record.title)
      && |s.record.title| > 0
      && s.record.cancelled == IsCancelled(s.record.title)
      && s.record.start.year >= CutoffYear
  {
    match Examine(f)
    case Fail(e) => Abort(e)
    case Ok(None) => Skip
    case Ok(Some(r)) =>
      KeptRecordTitle(f);
      Keep(r)
  }

  /** The title of a record the loop body appends is the fragment's first
      child, and its start lies in a current year. */
  lemma KeptRecordTitle(f: Fragment)
    requires Examine(f).Ok? && Examine(f).value.Some?
    ensures var record := Examine(f).value.value;
      && f[0] == TextNode(record.title)
      && |record.title| > 0
      && record.cancelled == IsCancelled(record.title)
      && record.start.year >= CutoffYear
  {
    var dates := ParseDate(TextOf(FirstContent(f[1]).value).value).value;
    var times := ParseTime(TextOf(FirstContent(f[2]).value).value).value;
    var instants := Instants(dates, times).value;
    assert instants.0.year == dates.start.year;
  }

  /** A kept record's start and end are the parsed date halves combined
      with the parsed times, field by field. */
  lemma KeptRecordOrigin(f: Fragment)
    requires ExamineFragment(f).Keep?
    ensures var record := ExamineFragment(f).record;
      && InnerText(f[1]).Some? && ParseDate(InnerText(f[1]).value).Ok?
      && InnerText(f[2]).Some? && ParseTime(InnerText(f[2]).value).Ok?
      && var dates, times := ParseDate(InnerText(f[1]).value).value, ParseTime(InnerText(f[2]).value).value;
      && record.start == DateTime(dates.start.year, dates.start.month, dates.start.day, times.startHour, times.startMinute)
      && record.end == DateTime(dates.end.year, dates.end.month, dates.end.day, times.endHour, times.endMinute)
  {
    var dateNode := FirstContent(f[1]).value;
    var dateText := TextOf(dateNode).value;
    var dates := ParseDate(dateText).value;
    var timeNode := FirstContent(f[2]).value;
    var timeText := TextOf(timeNode).value;
    var times := ParseTime(timeText).value;
    assert InnerText(f[1]) == Some(dateText);
    assert InnerText(f[2]) == Some(timeText);
    assert Instants(dates, times).Ok?;
  }

  /** A fragment whose date parses to a start year before the cutoff is
      skipped before its time child is read, so no time text, however
      malformed, and no missing time child can make it fail. */
  lemma StaleFragmentSkipped(f: Fragment, dateText: string)
    requires |f| >= 3 && Truthy(f[0])
    requires InnerText(f[1]) == Some(dateText) && dateText != ""
    requires ParseDate(dateText).Ok? && ParseDate(dateText).value.start.year < CutoffYear
    ensures ExamineFragment(f) == Skip
  {
    assert FirstContent(f[1]) == Ok(f[1].contents[0]);
    assert TextOf(f[1].contents[0]) == Ok(dateText);
  }

  /** An empty time text after a current date is skipped, like an empty
      date text; a missing time child, by contrast, raises. */
  lemma EmptyTimeSkipped(f: Fragment, dateText: string)
    requires |f| >= 3 && Truthy(f[0])
    requires InnerText(f[1]) == Some(dateText) && dateText != ""
    requires ParseDate(dateText).Ok? && ParseDate(dateText).value.start.year >= CutoffYear
    requires InnerText(f[2]) == Some("")
    ensures ExamineFragment(f) == Skip
  {
    assert FirstContent(f[1]) == Ok(f[1].contents[0]);
    assert TextOf(f[1].contents[0]) == Ok(dateText);
    assert FirstContent(f[2]) == Ok(TextNode(""));
  }

  /** A current event whose time child has no first content raises. */
  lemma MissingTimeAborts(f: Fragment, dateText: string)
    requires |f| >= 3 && Truthy(f[0])
    requires InnerText(f[1]) == Some(dateText) && dateText != ""
    requires ParseDate(dateText).Ok? && ParseDate(dateText).value.start.year >= CutoffYear
    requires FirstContent(f[2]).Fail?
    ensures ExamineFragment(f) == Abort(NoContents)
  {
    assert FirstContent(f[1]) == Ok(f[1].contents[0]);
    assert TextOf(f[1].contents[0]) == Ok(dateText);
  }

  /** Malformed date text is not skipped: its error escapes the loop. */
  lemma MalformedDateAborts(f: Fragment, dateText: string)
    requires |f| >= 3 && Truthy(f[0])
    requires InnerText(f[1]) == Some(dateText) && dateText != ""
    requires ParseDate(dateText).Fail?
    ensures ExamineFragment(f) == Abort(ParseDate(dateText).error)
  {
    assert FirstContent(f[1]) == Ok(f[1].contents[0]);
    assert TextOf(f[1].contents[0]) == Ok(dateText);
  }

  /** Malformed time text of a current event is not skipped either. */
  lemma MalformedTimeAborts(f: Fragment, dateText: string, timeText: string)
    requires |f| >= 3 && Truthy(f[0])
    requires InnerText(f[1]) == Some(dateText) && dateText != ""
    requires ParseDate(dateText).Ok? && ParseDate(dateText).value.start.year >= CutoffYear
    requires InnerText(f[2]) == Some(timeText) && timeText != ""
    requires ParseTime(timeText).Fail?
    ensures ExamineFragment(f) == Abort(ParseTime(timeText).error)
  {
    assert FirstContent(f[1]) == Ok(f[1].contents[0]);
    assert TextOf(f[1].contents[0]) == Ok(dateText);
    assert FirstContent(f[2]) == Ok(f[2].contents[0]);
    assert TextOf(f[2].contents[0]) == Ok(timeText);
  }

  /** Well-formed text naming a moment that does not exist (31 April,
      hour 24) raises from `datetime()`, and one on the first or last day
      `datetime` holds raises from `localize`: the error escapes the loop. */
  lemma ImpossibleInstantAborts(f: Fragment, dateText: string, timeText: string)
    requires |f| >= 3 && Truthy(f[0])
    requires InnerText(f[1]) == Some(dateText) && dateText != ""
    requires ParseDate(dateText).Ok? && ParseDate(dateText).value.start.year >= CutoffYear
    requires InnerText(f[2]) == Some(timeText) && timeText != ""
    requires ParseTime(timeText).Ok?
    requires Instants(ParseDate(dateText).value, ParseTime(timeText).value).Fail?
    ensures ExamineFragment(f) == Abort(Instants(ParseDate(dateText).value, ParseTime(timeText).value).error)
  {
    assert FirstContent(f[1]) == Ok(f[1].contents[0]);
    assert TextOf(f[1].contents[0]) == Ok(dateText);
    assert FirstContent(f[2]) == Ok(f[2].contents[0]);
    assert TextOf(f[2].contents[0]) == Ok(timeText);
  }

  /** A current event whose title is text and whose date and time texts
      name an existing moment is kept, with those instants and the
      cancellation the title spells. */
  lemma CurrentFragmentKept(f: Fragment, dateText: string, timeText: string)
    requires |f| >= 3 && f[0].TextNode? && f[0].text != ""
    requires InnerText(f[1]) == Some(dateText) && dateText != ""
    requires ParseDate(dateText).Ok? && ParseDate(dateText).value.start.year >= CutoffYear
    requires InnerText(f[2]) == Some(timeText) && timeText != ""
    requires ParseTime(timeText).Ok?
    requires Instants(ParseDate(dateText).value, ParseTime(timeText).value).Ok?
    ensures var instants := Instants(ParseDate(dateText).value, ParseTime(timeText).value).value;
      ExamineFragment(f) == Keep(Record(f[0].text, instants.0, instants.1, IsCancelled(f[0].text)))
  {
    assert FirstContent(f[1]) == Ok(f[1].contents[0]);
    assert TextOf(f[1].contents[0]) == Ok(dateText);
    assert FirstContent(f[2]) == Ok(f[2].contents[0]);
    assert TextOf(f[2].contents[0]) == Ok(timeText);
    assert TextOf(f[0]) == Ok(f[0].text);
  }

  /** The loop body applied to every fragment, in order. */
  function Steps(fs: seq<Fragment>): (steps: seq<Step>)
    ensures |steps| == |fs|
    ensures forall i :: 0 <= i < |fs| ==> steps[i] == ExamineFragment(fs[i])
  {
    seq(|fs|, i requires 0 <= i < |fs| => ExamineFragment(fs[i]))
  }

  /** The accumulation of the loop: the records of kept steps in order, or
      the error of the first step that raises. */
  function Collect(steps: seq<Step>): (r: Result<seq<Record>>)
    ensures r.Ok? ==> |r.value| <= |steps|
    ensures r.Fail? ==> exists i :: 0 <= i < |steps| && steps[i] == Abort(r.error)
  {
    if |steps| == 0 then Ok([])
    else
      match steps[0]
      case Abort(e) => Fail(e)
      case Skip => Collect(steps[1..])
      case Keep(record) =>
        var records :- Collect(steps[1..]);
        Ok([record] + records)
  }

  /** The accumulation succeeds exactly when no step raises, and then holds
      at most one record per step. */
  lemma {:induction false} CollectOkIffNoAbort(steps: seq<Step>)
    ensures Collect(steps).Ok? <==> forall i :: 0 <= i < |steps| ==> !steps[i].Abort?
    ensures Collect(steps).Ok? ==> |Collect(steps).value| <= |steps|
  {
    if |steps| > 0 {
      CollectOkIffNoAbort(steps[1..]);
      assert forall i :: 1 <= i < |steps| ==> steps[i] == steps[1..][i - 1];
    }
  }

  /** A failed accumulation carries the error of the first step that raises,
      and no step before it raises. */
  lemma {:induction false} CollectFailsAtFirstAbort(steps: seq<Step>) returns (i: nat)
    requires Collect(steps).Fail?
    ensures i < |steps| && steps[i] == Abort(Collect(steps).error)
    ensures forall j :: 0 <= j < i ==> !steps[j].Abort?
  {
    if steps[0].Abort? {
      i := 0;
    } else {
      var j := CollectFailsAtFirstAbort(steps[1..]);
      assert forall k :: 1 <= k <= j + 1 ==> steps[k] == steps[1..][k - 1];
      i := j + 1;
    }
  }

  /** A successful accumulation on a non-empty list is the head's record,
      if kept, followed by the accumulation of the tail. */
  lemma CollectCons(steps: seq<Step>)
    requires |steps| > 0 && Collect(steps).Ok?
    ensures Collect(steps[1..]).Ok?
    ensures steps[0].Keep? ==> Collect(steps).value == [steps[0].record] + Collect(steps[1..]).value
    ensures steps[0].Skip? ==> Collect(steps).value == Collect(steps[1..]).value
  {
  }

  /** Every position raised by one. */
  function ShiftUp(positions: seq<nat>): (r: seq<nat>)
    ensures |r| == |positions|
    ensures forall k :: 0 <= k < |r| ==> r[k] == positions[k] + 1
  {
    seq(|positions|, k requires 0 <= k < |positions| => positions[k] + 1)
  }

  /** The positions of the kept steps, in order. */
  function Picked(steps: seq<Step>): seq<nat> {
    if |steps| == 0 then []
    else (if steps[0].Keep? then [0] else []) + ShiftUp(Picked(steps[1..]))
  }

  /** Positions listed in strictly increasing order. */
  predicate Increasing(ps: seq<nat>) {
    forall k, l :: 0 <= k < l < |ps| ==> ps[k] < ps[l]
  }

  /** Every position in `ps` names a kept step. */
  predicate PointsAtKept(steps: seq<Step>, ps: seq<nat>) {
    forall k :: 0 <= k < |ps| ==> ps[k] < |steps| && steps[ps[k]].Keep?
  }

  /** Position `ps[k]` names the step that keeps `records[k]`, for every `k`. */
  predicate PointsAtRecords(steps: seq<Step>, ps: seq<nat>, records: seq<Record>) {
    && |ps| == |records|
    && forall k :: 0 <= k < |ps| ==> ps[k] < |steps| && steps[ps[k]] == Keep(records[k])
  }

  /** Raising increasing positions by one, and putting 0 in front of the
      raised ones, keeps them increasing. */
  lemma ShiftUpIncreasing(ps: seq<nat>)
    requires Increasing(ps)
    ensures Increasing(ShiftUp(ps)) && Increasing([0] + ShiftUp(ps))
  {
    var shifted := ShiftUp(ps);
    var led := [0] + shifted;
    forall k, l | 0 <= k < l < |led|
      ensures led[k] < led[l]
    {
      assert led[l] == shifted[l - 1];
      if k > 0 {
        assert led[k] == shifted[k - 1];
      }
    }
  }

  /** Positions of kept steps in the rest, raised by one, are positions of
      kept steps in the whole; so is 0 when the head is kept. */
  lemma ShiftUpPointsAtKept(steps: seq<Step>, tail: seq<nat>)
    requires |steps| > 0 && PointsAtKept(steps[1..], tail)
    ensures PointsAtKept(steps, ShiftUp(tail))
    ensures steps[0].Keep? ==> PointsAtKept(steps, [0] + ShiftUp(tail))
  {
    var shifted := ShiftUp(tail);
    forall k | 0 <= k < |tail|
      ensures shifted[k] < |steps| && steps[shifted[k]].Keep?
    {
      assert steps[tail[k] + 1] == steps[1..][tail[k]];
    }
    var led := [0] + shifted;
    forall k | 0 < k < |led|
      ensures led[k] == shifted[k - 1]
    {
    }
  }

  /** Picked positions are in range, strictly increasing, and name kept steps. */
  lemma {:induction false} PickedAreKept(steps: seq<Step>)
    ensures PointsAtKept(steps, Picked(steps))
    ensures Increasing(Picked(steps))
  {
    if |steps| > 0 {
      var tail := Picked(steps[1..]);
      PickedAreKept(steps[1..]);
      ShiftUpPointsAtKept(steps, tail);
      ShiftUpIncreasing(tail);
    }
  }

  /** A position in the rest, raised by one, is among the raised positions. */
  lemma ShiftUpHas(tail: seq<nat>, i: nat)
    requires i in tail
    ensures i + 1 in ShiftUp(tail)
  {
    var k :| 0 <= k < |tail| && tail[k] == i;
    assert ShiftUp(tail)[k] == i + 1;
  }

  /** Every kept step is picked. */
  lemma {:induction false} KeptArePicked(steps: seq<Step>)
    ensures forall i :: 0 <= i < |steps| && steps[i].Keep? ==> i in Picked(steps)
  {
    if |steps| > 0 {
      var tail := Picked(steps[1..]);
      KeptArePicked(steps[1..]);
      var shifted := ShiftUp(tail);
      forall i | 0 < i < |steps| && steps[i].Keep?
        ensures i in shifted
      {
        assert steps[1..][i - 1] == steps[i];
        ShiftUpHas(tail, i - 1);
      }
      if steps[0].Keep? {
        assert Picked(steps) == [0] + shifted;
      } else {
        assert Picked(steps) == shifted;
      }
    }
  }

  /** Positions of the rest's records, raised by one, point at the same
      records in the whole; with 0 in front they point at the head's record
      too when the head is kept. */
  lemma ShiftUpPointsAtRecords(steps: seq<Step>, tail: seq<nat>, records: seq<Record>)
    requires |steps| > 0 && PointsAtRecords(steps[1..], tail, records)
    ensures PointsAtRecords(steps, ShiftUp(tail), records)
    ensures steps[0].Keep? ==> PointsAtRecords(steps, [0] + ShiftUp(tail), [steps[0].record] + records)
  {
    var shifted := ShiftUp(tail);
    forall k | 0 <= k < |tail|
      ensures shifted[k] < |steps| && steps[shifted[k]] == Keep(records[k])
    {
      assert steps[tail[k] + 1] == steps[1..][tail[k]];
    }
    if steps[0].Keep? {
      var led := [0] + shifted;
      var all := [steps[0].record] + records;
      forall k | 0 < k < |led|
        ensures led[k] == shifted[k - 1] && all[k] == records[k - 1]
      {
      }
    }
  }

  /** The records of a successful accumulation are the kept steps' records,
      in the order of `Picked`. */
  lemma {:induction false} CollectFollowsPicked(steps: seq<Step>)
    requires Collect(steps).Ok?
    ensures PointsAtRecords(steps, Picked(steps), Collect(steps).value)
  {
    if |steps| > 0 {
      var rest := steps[1..];
      CollectCons(steps);
      CollectFollowsPicked(rest);
      ShiftUpPointsAtRecords(steps, Picked(rest), Collect(rest).value);
    }
  }

  /** A successful accumulation keeps exactly the kept steps, in order:
      `picked` lists their positions, increasing, and every step not picked
      is a skip. */
  lemma CollectSelects(steps: seq<Step>) returns (picked: seq<nat>)
    requires Collect(steps).Ok?
    ensures |picked| == |Collect(steps).value|
    ensures forall k :: 0 <= k < |picked| ==>
      picked[k] < |steps| && steps[picked[k]] == Keep(Collect(steps).value[k])
    ensures forall k, l :: 0 <= k < l < |picked| ==> picked[k] < picked[l]
    ensures forall i :: 0 <= i < |steps| && i !in picked ==> steps[i] == Skip
  {
    picked := Picked(steps);
    PickedAreKept(steps);
    KeptArePicked(steps);
    CollectFollowsPicked(steps);
    CollectOkIffNoAbort(steps);
  }

  /** `parse_events` without the markup parsing: the records of the kept
      fragments in fragment order, or the exception of the first fragment
      that raises. */
  function ParseEvents(fs: seq<Fragment>): (r: Result<seq<Record>>)
    ensures r.Ok? <==> forall i :: 0 <= i < |fs| ==> !ExamineFragment(fs[i]).Abort?
    ensures r.Ok? ==> |r.value| <= |fs|
  {
    CollectOkIffNoAbort(Steps(fs));
    Collect(Steps(fs))
  }

  /** A failed run reports the exception of the first fragment that raises;
      every fragment before it was skipped or kept. */
  lemma ParseEventsFailsAtFirstAbort(fs: seq<Fragment>) returns (i: nat)
    requires ParseEvents(fs).Fail?
    ensures i < |fs| && ExamineFragment(fs[i]) == Abort(ParseEvents(fs).error)
    ensures forall j :: 0 <= j < i ==> !ExamineFragment(fs[j]).Abort?
  {
    i := CollectFailsAtFirstAbort(Steps(fs));
  }

  /** A successful run keeps exactly the fragments the loop body keeps, in
      order: `picked` lists their positions, increasing, and every fragment
      not picked was skipped. */
  lemma ParseEventsSelects(fs: seq<Fragment>) returns (picked: seq<nat>)
    requires ParseEvents(fs).Ok?
    ensures |picked| == |ParseEvents(fs).value|
    ensures forall k :: 0 <= k < |picked| ==>
      picked[k] < |fs| && ExamineFragment(fs[picked[k]]) == Keep(ParseEvents(fs).value[k])
    ensures forall k, l :: 0 <= k < l < |picked| ==> picked[k] < picked[l]
    ensures forall i :: 0 <= i < |fs| && i !in picked ==> ExamineFragment(fs[i]) == Skip
  {
    picked := CollectSelects(Steps(fs));
  }

  /** Every record of a successful run is current and flags cancellation
      exactly when its title holds the keyword. */
  lemma ParsedRecordsAreCurrent(fs: seq<Fragment>)
    requires ParseEvents(fs).Ok?
    ensures forall k :: 0 <= k < |ParseEvents(fs).value| ==>
      var record := ParseEvents(fs).value[k];
      record.start.year >= CutoffYear && record.cancelled == IsCancelled(record.title)
  {
    var picked := ParseEventsSelects(fs);
  }
}

=== FILE: identity.dfy ===
/** Event identifiers: `get_uuid` in src/sync_calendar.py. Each event's
    identifier is a digest of the text `<ISO date>:<n>`, where `n` counts
    the events on that date seen so far in the run. The digest (MD5, shaped
    into a UUID) is not modelled; this module reasons about the text that
    is digested, called here the uid source. */
module Identity {
  import opened Outcome
  import opened Numerals
  import opened Civil

  /** `counter_map.get(key, 0)`. */
  function Count(counters: map<string, int>, key: string): int {
    if key in counters then counters[key] else 0
  }

  /** The two parts of the digested text: the event's ISO date and its
      position among the events on that date. */
  datatype UidKey = UidKey(day: string, counter: int)

  /** `'%s:%d' % (date_part, counter)`: the text that is digested. */
  function UidSource(k: UidKey): (s: string)
    ensures |s| > |k.day| && s[..|k.day|] == k.day && s[|k.day|] == ':'
    ensures ParseInt(s[|k.day| + 1..]) == Some(k.counter)
  {
    k.day + ":" + IntText(k.counter)
  }

  /** Keys whose dates print with the same width are told apart by their
      text: the date part is a prefix of known length, the rest is the
      counter. */
  lemma UidSourceInjective(a: UidKey, b: UidKey)
    requires |a.day| == |b.day|
    ensures UidSource(a) == UidSource(b) <==> a == b
  {
    var sa, sb := UidSource(a), UidSource(b);
    if sa == sb {
      var w := |a.day|;
      assert sa[..w] == a.day && sb[..w] == b.day;
      assert sa[w + 1..] == IntText(a.counter) && sb[w + 1..] == IntText(b.counter);
      IntTextInjective(a.counter, b.counter);
    }
  }

  /** `get_uuid`: the counter of the event's date goes up by one (from 0
      when the date is new), every other counter is left alone, and the key
      carries the date and its new count. */
  function GetUuid(dt: CivilDateTime, counters: map<string, int>): (r: (UidKey, map<string, int>))
    ensures IsoDate(dt) in r.1 && r.1[IsoDate(dt)] == Count(counters, IsoDate(dt)) + 1
    ensures forall k :: k != IsoDate(dt) ==> (k in r.1 <==> k in counters)
    ensures forall k :: k != IsoDate(dt) && k in counters ==> r.1[k] == counters[k]
    ensures r.0 == UidKey(IsoDate(dt), Count(counters, IsoDate(dt)) + 1)
  {
    var datePart := IsoDate(dt);
    var counter := Count(counters, datePart) + 1;
    (UidKey(datePart, counter), counters[datePart := counter])
  }

  /** The keys of the loop in `eventdata_to_calendar`, one per start
      instant, threading the counters from one event to the next. */
  function UidKeys(starts: seq<CivilDateTime>, counters: map<string, int>): (keys: seq<UidKey>)
    ensures |keys| == |starts|
    ensures forall i :: 0 <= i < |starts| ==> keys[i].day == IsoDate(starts[i])
  {
    if |starts| == 0 then []
    else
      var (key, next) := GetUuid(starts[0], counters);
      [key] + UidKeys(starts[1..], next)
  }

  /** How many of `starts` fall on the same day as `dt`. */
  function Occurrences(starts: seq<CivilDateTime>, dt: CivilDateTime): nat {
    if |starts| == 0 then 0
    else (if SameDay(starts[0], dt) then 1 else 0) + Occurrences(starts[1..], dt)
  }

  /** Counting splits at any point of the list. */
  lemma {:induction false} OccurrencesSplit(starts: seq<CivilDateTime>, i: nat, dt: CivilDateTime)
    requires i <= |starts|
    ensures Occurrences(starts, dt) == Occurrences(starts[..i], dt) + Occurrences(starts[i..], dt)
  {
    if i > 0 {
      OccurrencesSplit(starts[1..], i - 1, dt);
      assert starts[..i][1..] == starts[1..][..i - 1];
      assert starts[1..][i - 1..] == starts[i..];
    } else {
      assert starts[..0] == [];
      assert starts[0..] == starts;
    }
  }

  /** After `get_uuid` for `dt`, the counter of `d`'s date has gone up by one
      exactly when `d` falls on the same day as `dt`. */
  lemma CountAfter(dt: CivilDateTime, d: CivilDateTime, counters: map<string, int>)
    ensures Count(GetUuid(dt, counters).1, IsoDate(d))
         == Count(counters, IsoDate(d)) + (if SameDay(dt, d) then 1 else 0)
  {
    IsoDateIdentifiesDay(dt, d);
  }

  /** Counting the first `i` instants: the head, then the next `i - 1`. */
  lemma OccurrencesHead(starts: seq<CivilDateTime>, i: nat, d: CivilDateTime)
    requires 0 < i <= |starts|
    ensures Occurrences(starts[..i], d)
         == (if SameDay(starts[0], d) then 1 else 0) + Occurrences(starts[1..][..i - 1], d)
  {
    assert starts[..i][1..] == starts[1..][..i - 1];
  }

  /** Past the first instant, the keys are those of the rest, handed out
      from the counters the first call left. */
  lemma UidKeysTail(starts: seq<CivilDateTime>, counters: map<string, int>, i: nat)
    requires 0 < i < |starts|
    ensures UidKeys(starts, counters)[i] == UidKeys(starts[1..], GetUuid(starts[0], counters).1)[i - 1]
  {
  }

  /** The `i`-th key counts the earlier events on its day, on top of
      whatever the counters held at the start. */
  lemma {:induction false} UidKeysCountDay(starts: seq<CivilDateTime>, counters: map<string, int>, i: nat)
    requires i < |starts|
    ensures UidKeys(starts, counters)[i].day == IsoDate(starts[i])
    ensures UidKeys(starts, counters)[i].counter
         == Count(counters, IsoDate(starts[i])) + Occurrences(starts[..i], starts[i]) + 1
  {
    if i > 0 {
      var d := starts[i];
      var next := GetUuid(starts[0], counters).1;
      UidKeysCountDay(starts[1..], next, i - 1);
      UidKeysTail(starts, counters, i);
      assert starts[1..][i - 1] == d;
      CountAfter(starts[0], d, counters);
      OccurrencesHead(starts, i, d);
    } else {
      UidKeysHead(starts, counters);
    }
  }

  /** The first key counts nothing before it. */
  lemma UidKeysHead(starts: seq<CivilDateTime>, counters: map<string, int>)
    requires 0 < |starts|
    ensures UidKeys(starts, counters)[0].day == IsoDate(starts[0])
    ensures UidKeys(starts, counters)[0].counter
         == Count(counters, IsoDate(starts[0])) + Occurrences(starts[..0], starts[0]) + 1
  {
    assert starts[..0] == [];
  }

  /** In one run, starting from empty counters, the `k`-th event on a day
      (counting from 1) gets the key `(day, k)`. */
  lemma UidKeysNumberEachDay(starts: seq<CivilDateTime>)
    ensures forall i :: 0 <= i < |starts| ==>
      UidKeys(starts, map[])[i] == UidKey(IsoDate(starts[i]), Occurrences(starts[..i], starts[i]) + 1)
  {
    forall i | 0 <= i < |starts|
      ensures UidKeys(starts, map[])[i] == UidKey(IsoDate(starts[i]), Occurrences(starts[..i], starts[i]) + 1)
    {
      UidKeyFromEmpty(starts, i);
    }
  }

  /** The `i`-th key of a run that starts from empty counters. */
  lemma UidKeyFromEmpty(starts: seq<CivilDateTime>, i: nat)
    requires i < |starts|
    ensures UidKeys(starts, map[])[i] == UidKey(IsoDate(starts[i]), Occurrences(starts[..i], starts[i]) + 1)
  {
    var empty: map<string, int> := map[];
    UidKeysCountDay(starts, empty, i);
    assert Count(empty, IsoDate(starts[i])) == 0;
  }

  /** Hence no two events of one run share the text that is digested. */
  lemma UidKeysDistinct(starts: seq<CivilDateTime>)
    ensures forall i, j :: 0 <= i < j < |starts| ==>
      UidSource(UidKeys(starts, map[])[i]) != UidSource(UidKeys(starts, map[])[j])
  {
    forall i, j | 0 <= i < j < |starts|
      ensures UidSource(UidKeys(starts, map[])[i]) != UidSource(UidKeys(starts, map[])[j])
    {
      UidKeysApart(starts, i, j);
    }
  }

  /** Two events of one run never share a key. */
  lemma UidKeysApart(starts: seq<CivilDateTime>, i: nat, j: nat)
    requires i < j < |starts|
    ensures UidSource(UidKeys(starts, map[])[i]) != UidSource(UidKeys(starts, map[])[j])
  {
    var keys := UidKeys(starts, map[]);
    UidKeysCountDay(starts, map[], i);
    UidKeysCountDay(starts, map[], j);
    UidSourceInjective(keys[i], keys[j]);
    IsoDateIdentifiesDay(starts[i], starts[j]);
    if SameDay(starts[i], starts[j]) {
      LaterOnSameDay(starts, i, j);
    }
  }

  /** A later event on the same day has more events of that day before it. */
  lemma LaterOnSameDay(starts: seq<CivilDateTime>, i: nat, j: nat)
    requires i < j < |starts| && SameDay(starts[i], starts[j])
    ensures Occurrences(starts[..i], starts[i]) < Occurrences(starts[..j], starts[j])
  {
    var prefix := starts[..j];
    OccurrencesSplit(prefix, i, starts[j]);
    assert prefix[..i] == starts[..i];
    assert prefix[i..][0] == starts[i];
    SameDayCountsAlike(starts[..i], starts[i], starts[j]);
  }

  /** Two instants on the same day are counted alike. */
  lemma {:induction false} SameDayCountsAlike(starts: seq<CivilDateTime>, a: CivilDateTime, b: CivilDateTime)
    requires SameDay(a, b)
    ensures Occurrences(starts, a) == Occurrences(starts, b)
  {
    if |starts| > 0 {
      SameDayCountsAlike(starts[1..], a, b);
    }
  }
}

=== FILE: months.dfy ===
/** The Danish month-name table the date parser resolves month words
    through (`MONTH_MAP` in src/sync_calendar.py). */
module Months {
  import opened Outcome
  import opened Text

  /** The month names in calendar order: `MonthNames[m - 1]` is month `m`. */
  const MonthNames: seq<string> := [
    "januar", "februar", "marts", "april", "maj", "juni",
    "juli", "august", "september", "oktober", "november", "december"
  ]

  /** The lookup table itself, keyed by lower-case name. */
  const MonthMap: map<string, int> := map[
    "januar" := 1,
    "februar" := 2,
    "marts" := 3,
    "april" := 4,
    "maj" := 5,
    "juni" := 6,
    "juli" := 7,
    "august" := 8,
    "september" := 9,
    "oktober" := 10,
    "november" := 11,
    "december" := 12
  ]

  /** `MONTH_MAP[name.lower()]`: the month number of a name in any letter
      case, or nothing when the lower-cased name is not in the table. */
  function MonthNumber(name: string): (r: Option<int>)
    ensures r.Some? <==> Lower(name) in MonthMap
    ensures r.Some? ==> 1 <= r.value <= 12 && MonthNames[r.value - 1] == Lower(name)
  {
    var key := Lower(name);
    if key in MonthMap then Some(MonthMap[key]) else None
  }

  /** The table has exactly twelve lower-case keys, its values are exactly
      1..12, no two names share a number, and it agrees with `MonthNames`. */
  lemma MonthMapIsBijection()
    ensures |MonthMap| == 12
    ensures forall k :: k in MonthMap ==> 1 <= MonthMap[k] <= 12 && Lower(k) == k
    ensures forall a, b :: a in MonthMap && b in MonthMap && MonthMap[a] == MonthMap[b] ==> a == b
    ensures forall i :: 0 <= i < 12 ==> MonthNames[i] in MonthMap && MonthMap[MonthNames[i]] == i + 1
  {
    MonthMapSize();
    MonthMapKeysAndValues();
    MonthMapInjective();
    MonthMapFollowsNames();
  }

  lemma MonthMapSize()
    ensures |MonthMap| == 12
  {
    var first := {"januar", "februar", "marts", "april", "maj", "juni"};
    var second := {"juli", "august", "september", "oktober", "november", "december"};
    HalfYearSizes(first, second);
    assert first !! second;
    assert MonthMap.Keys == first + second;
  }

  /** Each half of the year has six distinct names. */
  lemma HalfYearSizes(first: set<string>, second: set<string>)
    requires first == {"januar", "februar", "marts", "april", "maj", "juni"}
    requires second == {"juli", "august", "september", "oktober", "november", "december"}
    ensures |first| == 6 && |second| == 6
  {
  }

  lemma MonthMapKeysAndValues()
    ensures forall k :: k in MonthMap ==> 1 <= MonthMap[k] <= 12 && Lower(k) == k
  {
  }

  lemma MonthMapInjective()
    ensures forall a, b :: a in MonthMap && b in MonthMap && MonthMap[a] == MonthMap[b] ==> a == b
  {
  }

  lemma MonthMapFollowsNames()
    ensures forall i :: 0 <= i < 12 ==> MonthNames[i] in MonthMap && MonthMap[MonthNames[i]] == i + 1
  {
  }

  /** Each name of the table, as written there, resolves to its month. */
  lemma MonthNamesResolve()
    ensures forall i :: 0 <= i < 12 ==> MonthNumber(MonthNames[i]) == Some(i + 1)
  {
    MonthMapKeysAndValues();
    MonthMapFollowsNames();
  }

  /** The lookup ignores letter case: a name and its lower-cased form
      resolve to the same month. */
  lemma MonthNumberIgnoresCase(name: string)
    ensures MonthNumber(Lower(name)) == MonthNumber(name)
  {
    LowerIdempotent(name);
  }

  /** A name that resolves is a single word: it contains no space, so it
      survives the date parser's split on spaces intact, and no `-`, so it
      cannot be taken for a range separator. */
  lemma MonthNameIsOneWord(name: string)
    requires MonthNumber(name).Some?
    ensures ' ' !in name && '-' !in name
  {
  }
}

=== FILE: numerals.dfy ===
/** Decimal integers as text: Python's `int(token)` on the parsing side and
    `'%d' % n` / `'%02d' % n` on the formatting side.

    `int()` is modelled for the shape the calendar page produces: an
    optional `+` or `-` sign followed by one or more ASCII digits. Python
    also admits surrounding whitespace, `_` between digits and non-ASCII
    decimal digits; those inputs are rejected here. */
module Numerals {
  import opened Outcome

  predicate IsDigit(c: char) {
    '0' <= c <= '9'
  }

  predicate AllDigits(s: string) {
    forall i :: 0 <= i < |s| ==> IsDigit(s[i])
  }

  /** A non-empty run of decimal digits. */
  predicate IsDigits(s: string) {
    |s| > 0 && AllDigits(s)
  }

  /** What `int()` accepts in this model: a sign, then digits. */
  predicate IsIntegerText(s: string) {
    || IsDigits(s)
    || (|s| > 0 && (s[0] == '+' || s[0] == '-') && IsDigits(s[1..]))
  }

  function Pow10(k: nat): (p: nat)
    ensures p >= 1
  {
    if k == 0 then 1 else 10 * Pow10(k - 1)
  }

  function DigitValue(c: char): (d: nat)
    requires IsDigit(c)
    ensures d < 10
  {
    c as int - '0' as int
  }

  function DigitChar(d: nat): (c: char)
    requires d < 10
    ensures IsDigit(c) && DigitValue(c) == d
  {
    ('0' as int + d) as char
  }

  /** The number a run of digits denotes, most significant digit first. */
  function DigitsValue(s: string): (v: nat)
    requires AllDigits(s)
    ensures v < Pow10(|s|)
  {
    if |s| == 0 then 0
    else 10 * DigitsValue(s[..|s| - 1]) + DigitValue(s[|s| - 1])
  }

  /** Python's `int(s)`, restricted as described above: the digits denote
      the magnitude, most significant first, leading zeros included, and
      the sign gives the direction. */
  function ParseInt(s: string): (r: Option<int>)
    ensures r.Some? <==> IsIntegerText(s)
    ensures r.Some? && IsDigits(s) ==> r.value >= 0
    ensures r.Some? && s[0] == '-' ==> r.value <= 0
    ensures IsDigits(s) ==> r == Some(DigitsValue(s) as int)
    ensures |s| > 0 && s[0] == '+' && IsDigits(s[1..]) ==> r == Some(DigitsValue(s[1..]) as int)
    ensures |s| > 0 && s[0] == '-' && IsDigits(s[1..]) ==> r == Some(-(DigitsValue(s[1..]) as int))
  {
    if IsDigits(s) then Some(DigitsValue(s))
    else if |s| > 0 && s[0] == '-' && IsDigits(s[1..]) then Some(-(DigitsValue(s[1..]) as int))
    else if |s| > 0 && s[0] == '+' && IsDigits(s[1..]) then Some(DigitsValue(s[1..]))
    else None
  }

  /** `'%d' % n` for a natural number. */
  function NatText(n: nat): (t: string)
    ensures IsDigits(t)
    ensures DigitsValue(t) == n
  {
    if n < 10 then [DigitChar(n)]
    else
      var t := NatText(n / 10) + [DigitChar(n % 10)];
      assert t[..|t| - 1] == NatText(n / 10);
      t
  }

  /** `'%d' % n`: an optional minus sign and the digits of `|n|`. */
  function IntText(n: int): (t: string)
    ensures IsIntegerText(t)
    ensures ParseInt(t) == Some(n)
  {
    if n < 0 then
      var t := "-" + NatText(-n);
      assert t[1..] == NatText(-n);
      t
    else NatText(n)
  }

  /** `'%0*d' % (width, n)` for a number that fits: exactly `width` digits,
      zero-padded on the left. */
  function Pad(n: nat, width: nat): (t: string)
    requires n < Pow10(width)
    ensures |t| == width
    ensures AllDigits(t)
    ensures DigitsValue(t) == n
  {
    if width == 0 then ""
    else
      var t := Pad(n / 10, width - 1) + [DigitChar(n % 10)];
      assert t[..|t| - 1] == Pad(n / 10, width - 1);
      t
  }

  /** A leading zero does not change the number a run of digits denotes. */
  lemma {:induction false} LeadingZeroValue(s: string)
    requires AllDigits(s)
    ensures AllDigits("0" + s) && DigitsValue("0" + s) == DigitsValue(s)
  {
    var z := "0" + s;
    assert AllDigits(z) by {
      assert forall i :: 1 <= i < |z| ==> z[i] == s[i - 1];
    }
    if |s| > 0 {
      assert z[..|z| - 1] == "0" + s[..|s| - 1];
      LeadingZeroValue(s[..|s| - 1]);
    }
  }

  /** `int()` ignores leading zeros, signed or not: `int("05") == int("5")`
      and `int("-007") == int("-7")`. */
  lemma LeadingZeroIgnored(sign: string, s: string)
    requires sign in {"", "+", "-"}
    requires IsDigits(s)
    ensures ParseInt(sign + "0" + s) == ParseInt(sign + s)
  {
    LeadingZeroValue(s);
    assert (sign + "0" + s)[|sign|..] == "0" + s;
    assert (sign + s)[|sign|..] == s;
  }

  /** Zero-padded text of any width reads back through `int()` as the
      number it pads, so `int("00") == 0` and `int("05") == 5`. */
  lemma PadReadsBack(n: nat, width: nat)
    requires 0 < width && n < Pow10(width)
    ensures ParseInt(Pad(n, width)) == Some(n)
  {
  }

  /** Equal digit strings of any kind denote equal numbers, and distinct
      numbers are printed differently. */
  lemma IntTextInjective(a: int, b: int)
    requires IntText(a) == IntText(b)
    ensures a == b
  {
    assert ParseInt(IntText(a)) == Some(a);
  }

  /** Integer text holds only signs and digits and ends in a digit, so it
      never contains the separators the parsers split on. */
  lemma IntegerTextShape(s: string)
    requires IsIntegerText(s)
    ensures forall i :: 0 <= i < |s| ==> IsDigit(s[i]) || s[i] == '+' || s[i] == '-'
    ensures IsDigit(s[|s| - 1])
    ensures ' ' !in s && ':' !in s && '.' !in s
  {
    if !IsDigits(s) {
      assert forall i :: 1 <= i < |s| ==> s[i] == s[1..][i - 1];
    }
  }
}

=== FILE: outcome.dfy ===
/** Failure-compatible result types shared by every stage of the pipeline.
    The Python code raises exceptions; each exception kind it can raise on the
    modelled path becomes one `Error` constructor. */
module Outcome {

  /** The exceptions the extraction path can raise. None of them is caught,
      so each one ends the whole run. */
  datatype Error =
    | UnpackMismatch   // ValueError: a tuple unpack got the wrong number of parts
    | NotAnInteger     // ValueError: int() rejected a token
    | UnknownMonth     // KeyError: the month name is not in the month table
    | NoContents       // AttributeError/IndexError: `.contents[0]` is not there
    | NotText          // a string operation was applied to an element, not to text
    | InvalidInstant   // ValueError: datetime() rejected the civil fields
    | OutOfRange       // OverflowError: a field exceeds a C int, or a day step leaves datetime's years

  datatype Option<+T> = None | Some(value: T)

  datatype Result<+T> = Ok(value: T) | Fail(error: Error) {

    predicate IsFailure() {
      Fail?
    }

    function PropagateFailure<U>(): Result<U>
      requires Fail?
    {
      Fail(error)
    }

    function Extract(): T
      requires Ok?
    {
      value
    }
  }

  /** Turns a missing optional value into the given failure. */
  function OrFail<T>(o: Option<T>, e: Error): (r: Result<T>)
    ensures r.Ok? <==> o.Some?
    ensures r.Ok? ==> r.value == o.value
    ensures r.Fail? ==> r.error == e
  {
    match o
    case Some(v) => Ok(v)
    case None => Fail(e)
  }
}

=== FILE: pipeline.dfy ===
/** One run of the sync (`main` in src/sync_calendar.py) without the HTTP
    request and the file write: the selected fragments of the page go
    through `parse_events`, and the records through `eventdata_to_calendar`.
    An exception in either ends the run with no calendar. */
module Pipeline {
  import opened Outcome
  import opened Text
  import opened Numerals
  import opened Months
  import opened Civil
  import opened DateText
  import opened TimeText
  import opened Extract
  import opened Identity
  import opened Assembly

  /** The calendar a run produces, or the error that ends it. */
  function Run<U(==)>(fs: seq<Fragment>, now: CivilDateTime, digest: string -> U): (r: Result<Calendar<U>>)
    ensures r.Ok? <==> forall i :: 0 <= i < |fs| ==> !ExamineFragment(fs[i]).Abort?
    ensures r.Ok? ==> r.value.prodid == ProdId && r.value.version == Version
    ensures r.Ok? ==> |r.value.events| <= |fs|
  {
    var records :- ParseEvents(fs);
    Ok(EventdataToCalendar(records, now, digest))
  }

  /** A failed run reports the error of the first fragment that raises. */
  lemma RunFailsAtFirstAbort<U>(fs: seq<Fragment>, now: CivilDateTime, digest: string -> U) returns (i: nat)
    requires Run(fs, now, digest).Fail?
    ensures i < |fs| && ExamineFragment(fs[i]) == Abort(Run(fs, now, digest).error)
    ensures forall j :: 0 <= j < i ==> !ExamineFragment(fs[j]).Abort?
  {
    i := ParseEventsFailsAtFirstAbort(fs);
  }

  /** In a successful run the events follow the kept fragments in page
      order: event `k` comes from fragment `picked[k]`, whose first child is
      the event's title; every other fragment was skipped. Every event is
      current, carries the cancellation marks exactly when its title holds
      "aflyst" in some letter case, and digests a text of its own. */
  lemma RunEvents<U>(fs: seq<Fragment>, now: CivilDateTime, digest: string -> U) returns (picked: seq<nat>)
    requires Run(fs, now, digest).Ok?
    ensures var events := Run(fs, now, digest).value.events;
      && |picked| == |events|
      && (forall k :: 0 <= k < |picked| ==>
          && picked[k] < |fs|
          && ExamineFragment(fs[picked[k]]).Keep?
          && fs[picked[k]][0] == TextNode(events[k].name)
          && events[k].start.year >= CutoffYear
          && (events[k].status == Some(CancelStatus) <==> IsCancelled(events[k].name)))
      && (forall k, l :: 0 <= k < l < |picked| ==> picked[k] < picked[l])
      && (forall i :: 0 <= i < |fs| && i !in picked ==> ExamineFragment(fs[i]) == Skip)
      && (forall k, l :: 0 <= k < l < |events| ==> UidSource(events[k].key) != UidSource(events[l].key))
  {
    picked := ParseEventsSelects(fs);
    var records := ParseEvents(fs).value;
    var events := EventdataToCalendar(records, now, digest).events;
    assert Run(fs, now, digest).value.events == events;
    forall k | 0 <= k < |picked|
      ensures fs[picked[k]][0] == TextNode(events[k].name)
      ensures events[k].start.year >= CutoffYear
      ensures events[k].status == Some(CancelStatus) <==> IsCancelled(events[k].name)
    {
      assert ExamineFragment(fs[picked[k]]) == Keep(records[k]);
      assert Describes(events[k], records[k], now, digest);
    }
  }

  /** A title that lacks one letter of the cancellation keyword, in both
      letter cases, is not cancelled. */
  lemma NotCancelledWithout(title: string, c: char)
    requires c in CancelKeyword && c !in title && (c as int - 32) as char !in title
    ensures !IsCancelled(title)
  {
    var low := Lower(title);
    forall i | 0 <= i < |title|
      ensures low[i] != c
    {
      if IsUpper(title[i]) {
        assert title[i] != (c as int - 32) as char;
      }
    }
    var k :| 0 <= k < |CancelKeyword| && CancelKeyword[k] == c;
    AbsentCharAbsentPattern(low, CancelKeyword, k);
  }

  /** A one-day date such as `Søndag d. 5. marts 2023` is both the start
      and the end. */
  lemma OneDaySpelled(prefix: string, dayText: string, name: string, yearText: string)
    requires !Contains(prefix, DayMarker) && '-' !in prefix
    requires IsDigits(dayText) && IsDigits(yearText)
    requires name in MonthNames
    ensures MonthNumber(name).Some?
    ensures var date := Date(ParseInt(dayText).value, MonthNumber(name).value, ParseInt(yearText).value);
      ParseDate(prefix + DayMarker + dayText + ". " + name + " " + yearText) == Ok(DateRange(date, date))
  {
    MonthNamesResolve();
    MonthNameIsOneWord(name);
    SpelledHasNoRange(prefix, dayText, name, yearText);
    SingleDateRoundTrip(prefix, dayText, name, yearText);
    OneDayDate(prefix + DayMarker + dayText + ". " + name + " " + yearText);
  }

  /** A spelled-out date without `-` in its weekday or month holds no range
      separator. */
  lemma SpelledHasNoRange(prefix: string, dayText: string, name: string, yearText: string)
    requires '-' !in prefix && '-' !in name
    requires IsDigits(dayText) && IsDigits(yearText)
    ensures !Contains(prefix + DayMarker + dayText + ". " + name + " " + yearText, RangeSeparator)
  {
    var text := prefix + DayMarker + dayText + ". " + name + " " + yearText;
    assert '-' !in dayText && '-' !in yearText;
    assert '-' !in text;
    AbsentCharAbsentPattern(text, RangeSeparator, 1);
  }

  /** The page texts of the examples below, spelled as the calendar page
      lays them out. */
  const SundayFifthOfMarch := "Søndag " + DayMarker + "5" + ". " + "marts" + " " + "2023"
  const FourthOfDecember := "" + DayMarker + "4" + ". " + "december" + " " + "2022"
  const ThirtyFirstOfApril := "" + DayMarker + "31" + ". " + "april" + " " + "2023"
  const Evening := "19" + ":" + "00" + RangeSeparator + "21" + ":" + "00"
  const Morning := "10" + ":" + "00" + RangeSeparator + "12" + ":" + "30"

  /** The numerals the examples use. */
  lemma ExampleNumerals()
    ensures ParseInt("4") == Some(4) && ParseInt("5") == Some(5) && ParseInt("31") == Some(31)
    ensures ParseInt("2022") == Some(2022) && ParseInt("2023") == Some(2023)
    ensures ParseInt("00") == Some(0) && ParseInt("10") == Some(10) && ParseInt("12") == Some(12)
    ensures ParseInt("19") == Some(19) && ParseInt("21") == Some(21) && ParseInt("30") == Some(30)
  {
    DayNumerals();
    YearNumerals();
    ClockNumerals();
  }

  lemma DayNumerals()
    ensures ParseInt("4") == Some(4) && ParseInt("5") == Some(5) && ParseInt("31") == Some(31)
  {
    assert "31"[..1] == "3";
  }

  lemma YearNumerals()
    ensures ParseInt("2022") == Some(2022) && ParseInt("2023") == Some(2023)
  {
    assert "2022"[..3] == "202" && "2023"[..3] == "202" && "202"[..2] == "20" && "20"[..1] == "2";
    assert DigitsValue("2") == 2;
    assert DigitsValue("20") == 20;
    assert DigitsValue("202") == 202;
  }

  lemma ClockNumerals()
    ensures ParseInt("00") == Some(0) && ParseInt("10") == Some(10) && ParseInt("12") == Some(12)
    ensures ParseInt("19") == Some(19) && ParseInt("21") == Some(21) && ParseInt("30") == Some(30)
  {
    assert "00"[..1] == "0" && "10"[..1] == "1" && "12"[..1] == "1";
    assert "19"[..1] == "1" && "21"[..1] == "2" && "30"[..1] == "3";
  }

  /** The weekday before the day marker, and the empty prefix, hold no
      marker. */
  lemma ExamplePrefixes()
    ensures !Contains("Søndag ", DayMarker) && !Contains("", DayMarker)
  {
    AbsentCharAbsentPattern("Søndag ", DayMarker, 1);
    AbsentCharAbsentPattern("", DayMarker, 1);
  }

  /** What the date and time texts of the examples parse to. */
  lemma ExampleTexts()
    ensures ParseDate(SundayFifthOfMarch) == Ok(DateRange(Date(5, 3, 2023), Date(5, 3, 2023)))
    ensures ParseDate(FourthOfDecember) == Ok(DateRange(Date(4, 12, 2022), Date(4, 12, 2022)))
    ensures ParseDate(ThirtyFirstOfApril) == Ok(DateRange(Date(31, 4, 2023), Date(31, 4, 2023)))
    ensures ParseTime(Evening) == Ok(TimeRange(19, 0, 21, 0))
    ensures ParseTime(Morning) == Ok(TimeRange(10, 0, 12, 30))
  {
    ExampleNumerals();
    ExampleDates();
    ExampleTimes();
  }

  /** The date texts of the examples, each a spelled-out single day. */
  lemma ExampleDates()
    requires ParseInt("4") == Some(4) && ParseInt("5") == Some(5) && ParseInt("31") == Some(31)
    requires ParseInt("2022") == Some(2022) && ParseInt("2023") == Some(2023)
    ensures ParseDate(SundayFifthOfMarch) == Ok(DateRange(Date(5, 3, 2023), Date(5, 3, 2023)))
    ensures ParseDate(FourthOfDecember) == Ok(DateRange(Date(4, 12, 2022), Date(4, 12, 2022)))
    ensures ParseDate(ThirtyFirstOfApril) == Ok(DateRange(Date(31, 4, 2023), Date(31, 4, 2023)))
  {
    ExamplePrefixes();
    MonthNamesResolve();
    assert MonthNames[2] == "marts" && MonthNames[3] == "april" && MonthNames[11] == "december";
    OneDaySpelled("Søndag ", "5", "marts", "2023");
    OneDaySpelled("", "4", "december", "2022");
    OneDaySpelled("", "31", "april", "2023");
  }

  /** The time texts of the examples. */
  lemma ExampleTimes()
    requires ParseInt("00") == Some(0) && ParseInt("10") == Some(10) && ParseInt("12") == Some(12)
    requires ParseInt("19") == Some(19) && ParseInt("21") == Some(21) && ParseInt("30") == Some(30)
    ensures ParseTime(Evening) == Ok(TimeRange(19, 0, 21, 0))
    ensures ParseTime(Morning) == Ok(TimeRange(10, 0, 12, 30))
  {
    TimeRoundTrip("19", "00", "21", "00");
    TimeRoundTrip("10", "00", "12", "30");
  }

  const ConcertRecord := Record("Forårskoncert", DateTime(2023, 3, 5, 19, 0), DateTime(2023, 3, 5, 21, 0), false)

  const CancelledRecord := Record("Øveaften AFLYST", DateTime(2023, 3, 5, 10, 0), DateTime(2023, 3, 5, 12, 30), true)

  /** The fragment the calendar page lays out for one event: the title,
      then the date and the time each wrapped in an element. */
  function LaidOut(title: string, dateText: string, timeText: string): (f: Fragment)
    ensures |f| == 3 && f[0] == TextNode(title)
    ensures InnerText(f[1]) == Some(dateText) && InnerText(f[2]) == Some(timeText)
  {
    [TextNode(title), ElementNode([TextNode(dateText)]), ElementNode([TextNode(timeText)])]
  }

  const Concert := LaidOut(ConcertRecord.title, SundayFifthOfMarch, Evening)
  const Cancelled := LaidOut(CancelledRecord.title, SundayFifthOfMarch, Morning)
  const Stale := LaidOut("Julekoncert", FourthOfDecember, "ikke et tidspunkt")
  const NoSuchDay := LaidOut("Øveaften", ThirtyFirstOfApril, Evening)

  /** The concert's title holds no `y`, so it is no cancellation. */
  lemma ConcertTitle()
    ensures !IsCancelled(ConcertRecord.title)
  {
    NotCancelledWithout(ConcertRecord.title, 'y');
  }

  /** `AFLYST` in upper case counts as the keyword. */
  lemma CancelledTitle()
    ensures IsCancelled(CancelledRecord.title)
  {
    assert OccursAt(Lower(CancelledRecord.title), CancelKeyword, 9);
  }

  /** A fragment laid out as the calendar page lays out an event, whose
      texts parse to a current date and an existing moment, is kept with
      those instants. */
  lemma WellFormedKept(title: string, dateText: string, timeText: string, dates: DateRange, times: TimeRange)
    requires title != "" && dateText != "" && timeText != ""
    requires ParseDate(dateText) == Ok(dates) && dates.start.year >= CutoffYear
    requires ParseTime(timeText) == Ok(times)
    requires Instants(dates, times).Ok?
    ensures var instants := Instants(dates, times).value;
      ExamineFragment(LaidOut(title, dateText, timeText)) == Keep(Record(title, instants.0, instants.1, IsCancelled(title)))
  {
    CurrentFragmentKept(LaidOut(title, dateText, timeText), dateText, timeText);
  }

  /** A laid-out event of a year before the cutoff is skipped, whatever its
      time text. */
  lemma StaleLaidOutSkipped(title: string, dateText: string, timeText: string, dates: DateRange)
    requires title != "" && dateText != ""
    requires ParseDate(dateText) == Ok(dates) && dates.start.year < CutoffYear
    ensures ExamineFragment(LaidOut(title, dateText, timeText)) == Skip
  {
    StaleFragmentSkipped(LaidOut(title, dateText, timeText), dateText);
  }

  /** A laid-out event whose texts parse but name no moment that can be
      built and localized aborts the run with that error. */
  lemma ImpossibleLaidOutAborts(title: string, dateText: string, timeText: string, dates: DateRange, times: TimeRange)
    requires title != "" && dateText != "" && timeText != ""
    requires ParseDate(dateText) == Ok(dates) && dates.start.year >= CutoffYear
    requires ParseTime(timeText) == Ok(times)
    requires Instants(dates, times).Fail?
    ensures ExamineFragment(LaidOut(title, dateText, timeText)) == Abort(Instants(dates, times).error)
  {
    ImpossibleInstantAborts(LaidOut(title, dateText, timeText), dateText, timeText);
  }

  /** A current, uncancelled event is kept with its spelled-out instants. */
  lemma ConcertKept()
    ensures ExamineFragment(Concert) == Keep(ConcertRecord)
  {
    ExampleTexts();
    ConcertTitle();
    FifthOfMarchInstants(TimeRange(19, 0, 21, 0));
    WellFormedKept(ConcertRecord.title, SundayFifthOfMarch, Evening,
      DateRange(Date(5, 3, 2023), Date(5, 3, 2023)), TimeRange(19, 0, 21, 0));
  }

  /** Every time of day on 5 March 2023 builds and localizes to that day at
      that time. */
  lemma FifthOfMarchInstants(times: TimeRange)
    requires 0 <= times.startHour < 24 && 0 <= times.startMinute < 60
    requires 0 <= times.endHour < 24 && 0 <= times.endMinute < 60
    ensures Instants(DateRange(Date(5, 3, 2023), Date(5, 3, 2023)), times)
         == Ok((DateTime(2023, 3, 5, times.startHour, times.startMinute), DateTime(2023, 3, 5, times.endHour, times.endMinute)))
  {
    assert DaysInMonth(2023, 3) == 31;
  }

  /** `AFLYST` in upper case still marks the event cancelled. */
  lemma CancelledKept()
    ensures ExamineFragment(Cancelled) == Keep(CancelledRecord)
  {
    ExampleTexts();
    CancelledTitle();
    FifthOfMarchInstants(TimeRange(10, 0, 12, 30));
    WellFormedKept(CancelledRecord.title, SundayFifthOfMarch, Morning,
      DateRange(Date(5, 3, 2023), Date(5, 3, 2023)), TimeRange(10, 0, 12, 30));
  }

  /** A 2022 event is dropped before its time text is read, so text that
      is no time at all does no harm. */
  lemma StaleSkipped()
    ensures ExamineFragment(Stale) == Skip
  {
    ExampleTexts();
    StaleLaidOutSkipped("Julekoncert", FourthOfDecember, "ikke et tidspunkt", DateRange(Date(4, 12, 2022), Date(4, 12, 2022)));
  }

  /** 31 April reads fine as text but is no date: the run aborts. */
  lemma NoSuchDayAborts()
    ensures ExamineFragment(NoSuchDay) == Abort(InvalidInstant)
  {
    ExampleTexts();
    AprilHasThirtyDays(DateRange(Date(31, 4, 2023), Date(31, 4, 2023)), TimeRange(19, 0, 21, 0));
    ImpossibleLaidOutAborts("Øveaften", ThirtyFirstOfApril, Evening,
      DateRange(Date(31, 4, 2023), Date(31, 4, 2023)), TimeRange(19, 0, 21, 0));
  }

  /** 31 April at any hour is no moment; an hour or minute too large for a
      C `int` overflows before the day is even looked at. */
  lemma AprilHasThirtyDays(dates: DateRange, times: TimeRange)
    requires dates.start == Date(31, 4, 2023)
    ensures Instants(dates, times)
         == Fail(if FitsCInt(times.startHour) && FitsCInt(times.startMinute) then InvalidInstant else OutOfRange)
  {
    assert DaysInMonth(2023, 4) == 30;
  }

  /** 31 December 9999 is a valid date, but localizing it steps a day past
      the last year `datetime` holds. */
  lemma LastDayOverflows(dates: DateRange, times: TimeRange)
    requires dates.start == Date(31, 12, 9999)
    requires 0 <= times.startHour < 24 && 0 <= times.startMinute < 60
    ensures Instants(dates, times) == Fail(OutOfRange)
  {
    assert DaysInMonth(9999, 12) == 31;
  }

  /** A year of eleven digits does not fit the C `int` `datetime` converts
      it to, so the start raises OverflowError whatever the other fields. */
  lemma HugeYearOverflows(dates: DateRange, times: TimeRange)
    requires dates.start.year == 99_999_999_999
    ensures Instants(dates, times) == Fail(OutOfRange)
  {
  }

  /** A skipped fragment followed by two kept ones yields the two records. */
  lemma SkipKeepKeep(fs: seq<Fragment>, a: Record, b: Record)
    requires |fs| == 3
    requires ExamineFragment(fs[0]) == Skip
    requires ExamineFragment(fs[1]) == Keep(a) && ExamineFragment(fs[2]) == Keep(b)
    ensures ParseEvents(fs) == Ok([a, b])
  {
    ThreeSteps(fs, Skip, Keep(a), Keep(b));
    CollectSkipKeepKeep(Steps(fs), a, b);
  }

  /** The steps of three fragments, one per fragment. */
  lemma ThreeSteps(fs: seq<Fragment>, s0: Step, s1: Step, s2: Step)
    requires |fs| == 3
    requires ExamineFragment(fs[0]) == s0 && ExamineFragment(fs[1]) == s1 && ExamineFragment(fs[2]) == s2
    ensures Steps(fs) == [s0, s1, s2]
  {
    var steps := Steps(fs);
    assert steps[0] == s0 && steps[1] == s1 && steps[2] == s2;
    ThreeElements(steps, s0, s1, s2);
  }

  /** Solver helper: a sequence of three elements is the display of its
      elements, proved apart from any fragment so that no step is unfolded. */
  lemma ThreeElements<T>(xs: seq<T>, a: T, b: T, c: T)
    requires |xs| == 3 && xs[0] == a && xs[1] == b && xs[2] == c
    ensures xs == [a, b, c]
  {
  }

  lemma CollectSkipKeepKeep(steps: seq<Step>, a: Record, b: Record)
    requires steps == [Skip, Keep(a), Keep(b)]
    ensures Collect(steps) == Ok([a, b])
  {
    var last := [Keep(b)];
    var tail := [Keep(a), Keep(b)];
    assert steps[1..] == tail && tail[1..] == last && last[1..] == [];
    CollectOkIffNoAbort(last);
    CollectOkIffNoAbort(tail);
    CollectCons(last);
    assert Collect(last[1..]) == Ok([]);
    assert Collect(last).value == [b];
    CollectCons(tail);
    assert Collect(tail).value == [a] + [b] == [a, b];
    assert Collect(steps) == Collect(steps[1..]);
  }

  /** A raise in the second fragment ends the run, whatever follows. */
  lemma KeepAbort(fs: seq<Fragment>, a: Record, e: Error)
    requires |fs| >= 2
    requires ExamineFragment(fs[0]) == Keep(a) && ExamineFragment(fs[1]) == Abort(e)
    ensures ParseEvents(fs) == Fail(e)
  {
    var steps := Steps(fs);
    assert steps[0] == Keep(a) && steps[1] == Abort(e);
    assert steps[1..][0] == Abort(e);
    assert Collect(steps[1..]) == Fail(e);
  }

  /** The stale event is dropped and the two others are kept in page order. */
  lemma SameDayRecords()
    ensures ParseEvents([Stale, Concert, Cancelled]) == Ok([ConcertRecord, CancelledRecord])
  {
    StaleSkipped();
    ConcertKept();
    CancelledKept();
    SkipKeepKeep([Stale, Concert, Cancelled], ConcertRecord, CancelledRecord);
  }

  /** Two records starting on one day are numbered 1 and 2 on that day. */
  lemma TwoOnOneDay<U>(a: Record, b: Record, now: CivilDateTime, digest: string -> U)
    requires SameDay(a.start, b.start)
    ensures var c := EventdataToCalendar([a, b], now, digest);
      && c.events[0].key == UidKey(IsoDate(a.start), 1)
      && c.events[1].key == UidKey(IsoDate(a.start), 2)
  {
    var starts := Starts([a, b]);
    assert starts[..0] == [] && starts[..1] == [a.start];
    assert Occurrences(starts[..1], b.start) == 1;
    IsoDateIdentifiesDay(a.start, b.start);
  }

  /** Solver helper: the padded year of 5 March 2023, built up digit by
      digit. */
  lemma PaddedYear()
    ensures Pad(2023, 4) == "2023"
  {
    assert Pad(2, 1) == "2";
    assert Pad(20, 2) == "20";
    assert Pad(202, 3) == "202";
  }

  /** Solver helper: the padded month and day of 5 March 2023. */
  lemma PaddedMonthAndDay()
    ensures Pad(3, 2) == "03" && Pad(5, 2) == "05"
  {
    assert Pad(0, 1) == "0";
  }

  /** The ISO date of 5 March 2023. */
  lemma FifthOfMarch(dt: CivilDateTime)
    requires dt.year == 2023 && dt.month == 3 && dt.day == 5
    ensures IsoDate(dt) == "2023-03-05"
  {
    var y, m, d := Pad(dt.year, 4), Pad(dt.month, 2), Pad(dt.day, 2);
    assert IsoDate(dt) == y + "-" + m + "-" + d;
    PaddedYear();
    PaddedMonthAndDay();
    IsoDateText(y, m, d);
  }

  /** Solver helper: the three padded fields joined with dashes, proved
      apart from the date-time so that `Pad` is not unfolded again. */
  lemma IsoDateText(y: string, m: string, d: string)
    requires y == "2023" && m == "03" && d == "05"
    ensures y + "-" + m + "-" + d == "2023-03-05"
  {
  }

  /** A page with a stale event and two events on one day: the stale one
      is dropped, the two others are numbered 1 and 2 on their day, and the
      cancelled one carries the cancellation marks. */
  lemma SameDayPage<U>(page: seq<Fragment>, now: CivilDateTime, digest: string -> U)
    requires page == [Stale, Concert, Cancelled]
    ensures var r := Run(page, now, digest);
      && r.Ok?
      && |r.value.events| == 2
      && UidSource(r.value.events[0].key) == "2023-03-05:1"
      && UidSource(r.value.events[1].key) == "2023-03-05:2"
      && r.value.events[0].status == None
      && r.value.events[1].status == Some(CancelStatus)
  {
    SameDayRecords();
    var records := [ConcertRecord, CancelledRecord];
    assert Run(page, now, digest) == Ok(EventdataToCalendar(records, now, digest));
    TwoOnOneDay(ConcertRecord, CancelledRecord, now, digest);
    FifthOfMarchKeys(ConcertRecord.start);
  }

  /** The texts digested for the first two events of 5 March 2023. */
  lemma FifthOfMarchKeys(dt: CivilDateTime)
    requires dt.year == 2023 && dt.month == 3 && dt.day == 5
    ensures UidSource(UidKey(IsoDate(dt), 1)) == "2023-03-05:1"
    ensures UidSource(UidKey(IsoDate(dt), 2)) == "2023-03-05:2"
  {
    var day := IsoDate(dt);
    FifthOfMarch(dt);
    SmallIntTexts();
    KeyText(day, 1, "1");
    KeyText(day, 2, "2");
    FifthOfMarchKeyTexts(day);
  }

  /** Solver helper: the counter texts of the first two events of a day. */
  lemma SmallIntTexts()
    ensures IntText(1) == "1" && IntText(2) == "2"
  {
  }

  /** Solver helper: the digested text of a key whose counter prints as
      `counterText`, with the counter text held as a parameter. */
  lemma KeyText(day: string, counter: int, counterText: string)
    requires IntText(counter) == counterText
    ensures UidSource(UidKey(day, counter)) == day + ":" + counterText
  {
  }

  /** Solver helper: the two key texts of 5 March 2023, with the date held
      as a parameter so that `IsoDate` is not unfolded again. */
  lemma FifthOfMarchKeyTexts(day: string)
    requires day == "2023-03-05"
    ensures day + ":" + "1" == "2023-03-05:1" && day + ":" + "2" == "2023-03-05:2"
  {
  }

  /** One impossible date anywhere on the page ends the run. */
  lemma OneBadFragmentEndsRun<U>(now: CivilDateTime, digest: string -> U)
    ensures Run([Concert, NoSuchDay, Cancelled], now, digest) == Fail(InvalidInstant)
  {
    ConcertKept();
    NoSuchDayAborts();
    KeepAbort([Concert, NoSuchDay, Cancelled], ConcertRecord, InvalidInstant);
  }
}

=== FILE: text.dfy ===
/** The Python string operations the parser relies on: substring search
    (`in`, `str.partition`), `str.split` with an explicit separator,
    `str.replace(c, "")` and `str.lower()`. */
module Text {
  import opened Outcome

  /** The separator between the two halves of a date range and of a time
      range. */
  const RangeSeparator := " - "

  /** `pat` occurs in `s` starting at index `i`. */
  predicate OccursAt(s: string, pat: string, i: int) {
    0 <= i && i + |pat| <= |s| && s[i..i + |pat|] == pat
  }

  /** Index of the first occurrence of `pat` in `s` at or after `from`. */
  function FindFrom(s: string, pat: string, from: nat): (r: Option<nat>)
    decreases |s| - from
    ensures r.Some? ==> from <= r.value && OccursAt(s, pat, r.value)
    ensures r.Some? ==> forall j :: from <= j < r.value ==> !OccursAt(s, pat, j)
    ensures r.None? ==> forall j :: from <= j ==> !OccursAt(s, pat, j)
  {
    if from + |pat| > |s| then None
    else if s[from..from + |pat|] == pat then Some(from)
    else FindFrom(s, pat, from + 1)
  }

  /** Index of the first occurrence of `pat` in `s`, as `str.find` gives it. */
  function Find(s: string, pat: string): (r: Option<nat>)
    ensures r.Some? ==> OccursAt(s, pat, r.value)
    ensures r.Some? ==> forall j :: 0 <= j < r.value ==> !OccursAt(s, pat, j)
    ensures r.None? ==> forall j :: !OccursAt(s, pat, j)
  {
    FindFrom(s, pat, 0)
  }

  /** Python's `pat in s`. */
  function Contains(s: string, pat: string): (b: bool)
    ensures b <==> exists i :: OccursAt(s, pat, i)
  {
    Find(s, pat).Some?
  }

  /** Python's `s.partition(sep)[2]`: what follows the first occurrence of
      `sep`, or the empty string when `sep` does not occur. */
  function After(s: string, sep: string): (r: string)
    ensures !Contains(s, sep) ==> r == ""
    ensures Contains(s, sep) ==>
      && |r| + |sep| <= |s|
      && OccursAt(s, sep, |s| - |r| - |sep|)
      && s[|s| - |r|..] == r
      && forall j :: 0 <= j < |s| - |r| - |sep| ==> !OccursAt(s, sep, j)
  {
    match Find(s, sep)
    case Some(i) => s[i + |sep|..]
    case None => ""
  }

  /** Inverse of `Split`: the parts glued back together with `sep`. */
  function Join(parts: seq<string>, sep: string): string
    requires |parts| >= 1
  {
    if |parts| == 1 then parts[0] else parts[0] + sep + Join(parts[1..], sep)
  }

  /** An occurrence inside a prefix is an occurrence in the whole string. */
  lemma OccursInPrefix(s: string, pat: string, n: nat, j: int)
    requires n <= |s|
    requires OccursAt(s[..n], pat, j)
    ensures OccursAt(s, pat, j)
  {
    assert s[..n][j..j + |pat|] == s[j..j + |pat|];
  }

  /** Python's `s.split(sep)` for a non-empty separator: cut at every
      occurrence, scanning left to right. */
  function Split(s: string, sep: string): (parts: seq<string>)
    requires |sep| > 0
    decreases |s|
    ensures |parts| >= 1
    ensures Join(parts, sep) == s
    ensures forall k :: 0 <= k < |parts| ==> !Contains(parts[k], sep)
    ensures |parts| == 1 <==> !Contains(s, sep)
  {
    match Find(s, sep)
    case None => [s]
    case Some(i) =>
      var rest := Split(s[i + |sep|..], sep);
      SplitStep(s, sep, i, rest);
      [s[..i]] + rest
  }

  /** One step of `Split`: the text before the first occurrence followed by
      a split of the text after it is a split of the whole. */
  lemma SplitStep(s: string, sep: string, i: nat, rest: seq<string>)
    requires |sep| > 0
    requires Find(s, sep) == Some(i)
    requires |rest| >= 1
    requires Join(rest, sep) == s[i + |sep|..]
    requires forall k :: 0 <= k < |rest| ==> !Contains(rest[k], sep)
    ensures Join([s[..i]] + rest, sep) == s
    ensures forall k :: 0 <= k < |rest| + 1 ==> !Contains(([s[..i]] + rest)[k], sep)
  {
    JoinStep(s, sep, i, rest);
    FirstPartFree(s, sep, i);
    PartsFree(s[..i], rest, sep);
  }

  lemma JoinStep(s: string, sep: string, i: nat, rest: seq<string>)
    requires OccursAt(s, sep, i)
    requires |rest| >= 1
    requires Join(rest, sep) == s[i + |sep|..]
    ensures Join([s[..i]] + rest, sep) == s
  {
    AroundOccurrence(s, sep, i);
    JoinOnto(s[..i], sep, s[i + |sep|..], s, rest);
  }

  /** A string is the text before an occurrence, the occurrence, and the
      text after it. */
  lemma AroundOccurrence(s: string, pat: string, i: nat)
    requires OccursAt(s, pat, i)
    ensures s[..i] + pat + s[i + |pat|..] == s
  {
    assert s[i..i + |pat|] == pat;
    assert s == s[..i + |pat|] + s[i + |pat|..];
    assert s[..i + |pat|] == s[..i] + s[i..i + |pat|];
  }

  lemma JoinOnto(head: string, sep: string, tail: string, s: string, rest: seq<string>)
    requires head + sep + tail == s
    requires |rest| >= 1 && Join(rest, sep) == tail
    ensures Join([head] + rest, sep) == s
  {
    JoinCons(head, sep, rest);
  }

  lemma PartsFree(head: string, rest: seq<string>, sep: string)
    requires !Contains(head, sep)
    requires forall k :: 0 <= k < |rest| ==> !Contains(rest[k], sep)
    ensures forall k :: 0 <= k < |rest| + 1 ==> !Contains(([head] + rest)[k], sep)
  {
    forall k | 0 <= k < |rest| + 1
      ensures !Contains(([head] + rest)[k], sep)
    {
      if k > 0 {
        assert ([head] + rest)[k] == rest[k - 1];
      }
    }
  }

  /** The text before the first occurrence of `sep` is free of `sep`. */
  lemma FirstPartFree(s: string, sep: string, i: nat)
    requires |sep| > 0
    requires Find(s, sep) == Some(i)
    ensures !Contains(s[..i], sep)
  {
    forall j | OccursAt(s[..i], sep, j)
      ensures false
    {
      OccursInPrefix(s, sep, i, j);
    }
  }

  lemma JoinCons(head: string, sep: string, rest: seq<string>)
    requires |rest| >= 1
    ensures Join([head] + rest, sep) == head + sep + Join(rest, sep)
  {
    assert ([head] + rest)[1..] == rest;
  }

  /** When the first occurrence of `sep` in `a + sep + rest` is the one
      right after `a`, splitting peels off `a` and continues with `rest`. */
  lemma SplitAtFirst(a: string, sep: string, rest: string)
    requires |sep| > 0
    requires forall j :: 0 <= j < |a| ==> !OccursAt(a + sep + rest, sep, j)
    ensures Split(a + sep + rest, sep) == [a] + Split(rest, sep)
  {
    var s := a + sep + rest;
    FindAtFirst(a, sep, rest);
    assert s[..|a|] == a;
  }

  /** The same condition makes `a` the text before the first occurrence and
      `rest` the text `str.partition` returns after it. */
  lemma FindAtFirst(a: string, sep: string, rest: string)
    requires forall j :: 0 <= j < |a| ==> !OccursAt(a + sep + rest, sep, j)
    ensures Find(a + sep + rest, sep) == Some(|a|)
    ensures After(a + sep + rest, sep) == rest
  {
    var s := a + sep + rest;
    assert OccursAt(s, sep, |a|) by {
      assert s[|a|..|a| + |sep|] == sep;
    }
    assert s[|a| + |sep|..] == rest;
  }

  /** In `a + " - " + b` no separator starts inside `a` when `a` holds none
      and does not end in ` -`. */
  lemma SeparatorFoundAfterFirstHalf(a: string, b: string)
    requires !Contains(a, RangeSeparator)
    requires !(|a| >= 2 && a[|a| - 2..] == " -")
    ensures forall j :: 0 <= j < |a| ==> !OccursAt(a + RangeSeparator + b, RangeSeparator, j)
  {
    forall j | 0 <= j < |a|
      ensures !OccursAt(a + RangeSeparator + b, RangeSeparator, j)
    {
      NoSeparatorInside(a, b, j);
    }
  }

  lemma NoSeparatorInside(a: string, b: string, j: nat)
    requires !Contains(a, RangeSeparator)
    requires !(|a| >= 2 && a[|a| - 2..] == " -")
    requires j < |a|
    ensures !OccursAt(a + RangeSeparator + b, RangeSeparator, j)
  {
    var s := a + RangeSeparator + b;
    if j + 3 <= |a| {
      assert s[j..j + 3] == a[j..j + 3];
      assert !OccursAt(a, RangeSeparator, j);
    } else if j == |a| - 1 {
      assert s[j + 1] == ' ';
      assert s[j..j + 3][1] == s[j + 1];
    } else {
      assert s[j..j + 2] == a[|a| - 2..];
      assert s[j..j + 3][..2] == s[j..j + 2];
    }
  }

  /** `a - b` splits into exactly `a` and `b` under the same conditions. */
  lemma SplitRange(a: string, b: string)
    requires !Contains(a, RangeSeparator) && !Contains(b, RangeSeparator)
    requires !(|a| >= 2 && a[|a| - 2..] == " -")
    ensures Split(a + RangeSeparator + b, RangeSeparator) == [a, b]
  {
    SeparatorFoundAfterFirstHalf(a, b);
    SplitAtFirst(a, RangeSeparator, b);
    SplitWhole(b, RangeSeparator);
  }

  /** A string free of the separator splits into itself alone. */
  lemma SplitWhole(s: string, sep: string)
    requires |sep| > 0
    requires !Contains(s, sep)
    ensures Split(s, sep) == [s]
  {
  }

  /** A single-character separator that does not occur in `a` is first met
      right after `a`. */
  lemma SplitAtChar(a: string, c: char, rest: string)
    requires c !in a
    ensures Split(a + [c] + rest, [c]) == [a] + Split(rest, [c])
  {
    var s := a + [c] + rest;
    forall j | 0 <= j < |a|
      ensures !OccursAt(s, [c], j)
    {
      assert s[j] == a[j];
      assert s[j..j + 1] == [s[j]];
    }
    SplitAtFirst(a, [c], rest);
  }

  /** A string lacking one of the characters of `pat` cannot contain `pat`. */
  lemma AbsentCharAbsentPattern(s: string, pat: string, k: nat)
    requires k < |pat| && pat[k] !in s
    ensures !Contains(s, pat)
  {
    forall j | 0 <= j && j + |pat| <= |s|
      ensures !OccursAt(s, pat, j)
    {
      assert s[j..j + |pat|][k] == s[j + k];
    }
  }

  /** Python's `s.replace(c, "")` for a single character `c`. */
  function RemoveChar(s: string, c: char): (r: string)
    ensures c !in r
    ensures multiset(r) == multiset(s)[c := 0]
    ensures c !in s ==> r == s
  {
    if |s| == 0 then ""
    else
      var last := s[|s| - 1];
      var init := s[..|s| - 1];
      assert s == init + [last];
      if last == c then RemoveChar(init, c) else RemoveChar(init, c) + [last]
  }

  /** Removing a character distributes over concatenation. */
  lemma {:induction false} RemoveCharAppend(a: string, b: string, c: char)
    ensures RemoveChar(a + b, c) == RemoveChar(a, c) + RemoveChar(b, c)
    decreases |b|
  {
    if |b| == 0 {
      assert a + b == a;
    } else {
      var init := b[..|b| - 1];
      assert (a + b)[..|a + b| - 1] == a + init;
      RemoveCharAppend(a, init, c);
    }
  }

  predicate IsUpper(c: char) {
    ('A' <= c <= 'Z') || ('À' <= c <= 'Þ' && c != '×')
  }

  /** Python's `str.lower()` on one character, for ASCII and the Latin-1
      letters (which cover the Danish Æ, Ø and Å). */
  function LowerChar(c: char): (r: char)
    ensures !IsUpper(r)
    ensures !IsUpper(c) ==> r == c
    ensures IsUpper(c) ==> r as int == c as int + 32
  {
    if IsUpper(c) then (c as int + 32) as char else c
  }

  /** Python's `str.lower()`, character by character. */
  function Lower(s: string): (r: string)
    ensures |r| == |s|
    ensures forall i :: 0 <= i < |s| ==> r[i] == LowerChar(s[i])
  {
    seq(|s|, i requires 0 <= i < |s| => LowerChar(s[i]))
  }

  /** Lower-casing twice changes nothing more. */
  lemma LowerIdempotent(s: string)
    ensures Lower(Lower(s)) == Lower(s)
  {
  }
}

=== FILE: time_text.dfy ===
/** The time-text parser: `parse_time` in src/sync_calendar.py. It reads
    `19:00 - 21:00` into four integers. Hours and minutes are not range
    checked here; the civil date-time check rejects out-of-range values. */
module TimeText {
  import opened Outcome
  import opened Text
  import opened Numerals

  datatype TimeRange = TimeRange(startHour: int, startMinute: int, endHour: int, endMinute: int)

  /** `[int(x) for x in parts]`: every part converted, in order, or the
      ValueError of the first part that is not integer text. */
  function IntTokens(parts: seq<string>): (r: Result<seq<int>>)
    ensures r.Ok? <==> forall i :: 0 <= i < |parts| ==> IsIntegerText(parts[i])
    ensures r.Ok? ==> |r.value| == |parts|
    ensures r.Ok? ==> forall i :: 0 <= i < |parts| ==> ParseInt(parts[i]) == Some(r.value[i])
    ensures r.Fail? ==> r.error == NotAnInteger
  {
    if |parts| == 0 then Ok([])
    else
      var first :- OrFail(ParseInt(parts[0]), NotAnInteger);
      var rest :- IntTokens(parts[1..]);
      assert forall i :: 1 <= i < |parts| ==> parts[i] == parts[1..][i - 1];
      Ok([first] + rest)
  }

  /** One side of a time range, `H:MM`: every `:`-separated part converted,
      then unpacked into exactly an hour and a minute. */
  function ParseClock(text: string): (r: Result<(int, int)>)
    ensures r.Fail? ==> r.error == NotAnInteger || r.error == UnpackMismatch
  {
    var numbers :- IntTokens(Split(text, ":"));
    if |numbers| != 2 then Fail(UnpackMismatch) else Ok((numbers[0], numbers[1]))
  }

  /** A clock reading parses exactly when it is two integer texts around a
      single `:`, and yields the numbers they spell. */
  lemma ClockTokens(text: string)
    ensures var parts := Split(text, ":");
      && (ParseClock(text).Ok? <==> |parts| == 2 && IsIntegerText(parts[0]) && IsIntegerText(parts[1]))
      && (ParseClock(text).Ok? ==>
          ParseInt(parts[0]) == Some(ParseClock(text).value.0) && ParseInt(parts[1]) == Some(ParseClock(text).value.1))
  {
  }

  /** `parse_time`: exactly one ` - `, and a clock reading on each side. */
  function ParseTime(text: string): (r: Result<TimeRange>)
    ensures r.Fail? ==> r.error == NotAnInteger || r.error == UnpackMismatch
  {
    var halves := Split(text, RangeSeparator);
    if |halves| != 2 then Fail(UnpackMismatch)
    else
      var start :- ParseClock(halves[0]);
      var end :- ParseClock(halves[1]);
      Ok(TimeRange(start.0, start.1, end.0, end.1))
  }

  /** A time range parses exactly when it has one ` - ` with a clock reading
      on each side; start and end come from the left and right readings. */
  lemma TimeHalves(text: string)
    ensures var halves := Split(text, RangeSeparator);
      && (|halves| != 2 ==> ParseTime(text) == Fail(UnpackMismatch))
      && (ParseTime(text).Ok? <==> |halves| == 2 && ParseClock(halves[0]).Ok? && ParseClock(halves[1]).Ok?)
      && (ParseTime(text).Ok? ==>
          var start, end := ParseClock(halves[0]).value, ParseClock(halves[1]).value;
          ParseTime(text).value == TimeRange(start.0, start.1, end.0, end.1))
  {
  }

  /** `H:M` made of two integer texts splits into exactly those two. */
  lemma ClockParts(hourText: string, minuteText: string)
    requires IsIntegerText(hourText) && IsIntegerText(minuteText)
    ensures Split(hourText + ":" + minuteText, ":") == [hourText, minuteText]
  {
    IntegerTextShape(hourText);
    IntegerTextShape(minuteText);
    SplitAtChar(hourText, ':', minuteText);
    AbsentCharAbsentPattern(minuteText, ":", 0);
    SplitWhole(minuteText, ":");
  }

  /** A clock reading parses to the numbers its digits spell. */
  lemma ClockRoundTrip(hourText: string, minuteText: string)
    requires IsIntegerText(hourText) && IsIntegerText(minuteText)
    ensures ParseClock(hourText + ":" + minuteText)
         == Ok((ParseInt(hourText).value, ParseInt(minuteText).value))
  {
    ClockParts(hourText, minuteText);
    ClockTokens(hourText + ":" + minuteText);
  }

  /** A clock reading holds no ` - ` and does not end in ` -`, so a range
      separator after it is the first one. */
  lemma ClockShape(hourText: string, minuteText: string)
    requires IsIntegerText(hourText) && IsIntegerText(minuteText)
    ensures var a := hourText + ":" + minuteText;
      !Contains(a, RangeSeparator) && !(|a| >= 2 && a[|a| - 2..] == " -")
  {
    var a := hourText + ":" + minuteText;
    IntegerTextShape(hourText);
    IntegerTextShape(minuteText);
    assert ' ' !in a;
    AbsentCharAbsentPattern(a, RangeSeparator, 0);
  }

  /** `H:MM - H:MM` yields its four numbers unchanged, whatever their size:
      `25:99 - 7:00` parses as well as `19:00 - 21:00`. */
  lemma TimeRoundTrip(h1: string, m1: string, h2: string, m2: string)
    requires IsIntegerText(h1) && IsIntegerText(m1) && IsIntegerText(h2) && IsIntegerText(m2)
    ensures ParseTime(h1 + ":" + m1 + RangeSeparator + h2 + ":" + m2)
         == Ok(TimeRange(ParseInt(h1).value, ParseInt(m1).value, ParseInt(h2).value, ParseInt(m2).value))
  {
    var a, b := h1 + ":" + m1, h2 + ":" + m2;
    ClockShape(h1, m1);
    ClockShape(h2, m2);
    SplitRange(a, b);
    assert h1 + ":" + m1 + RangeSeparator + h2 + ":" + m2 == a + RangeSeparator + b;
    ClockRoundTrip(h1, m1);
    ClockRoundTrip(h2, m2);
  }
}
